=== FILE: README.md ===
# pypicokey core in Dafny

This project models the host-side core of pypicokey, the Python library that talks to a Pico Key device. Such a device is reached in one of two ways:

- as a PC/SC smart card;
- in rescue mode, as a raw USB CCID device.

The model covers:

- **Session** (`PicoKey`): the transport, the removal watcher and the secure channel a session holds. Its operations are `close`, `transmit`, `send`, `resend` and `open_secure_channel`, plus the card observer's `update`.
  - `send` builds an extended-length command frame and wraps it when a secure channel is open. When the transmission fails it reconnects and retries once. It applies the status-word policy, follows `61xx` chains with GET RESPONSE, then unwraps the answer.
- **Discovery** (the `PicoKey` constructor): reader selection by slot or by scan, the fallback to the rescue transport, the rescue-applet SELECT and the decoding of the platform, product and version.
- **Telemetry**: `flash_info`, `secure_info`, `secure_boot` and `reboot` as management commands (class 0x80). Their answers are decoded from big-endian words.
- **RescueDriver** (`RescuePicoKey`): the power state machine behind `powerOn`, `powerOff` and `transmit`, plus `close`, `has_card` and `find_class`. It also models the endpoint classification that decides which USB interface the driver binds.
- **RescueMonitor**: `start`, `stop`, one poll of `_run` and the observer's `on_connect`/`on_disconnect`. Over any run of polls, notifications alternate between connect and disconnect.
- **NamedIntEnum**: `from_string`, `__str__` and `__format__`. The `Platform`, `Product` and `ConnectionType` classes are enum classes built on it.

Modelling choices:

- **Transport.** A call's transport is a scripted `Link`. The k-th transmission within one call receives the k-th scripted outcome, either an answer or a fault. A transmission past the end of the script faults.
- **Reconnect.** A PC/SC card reconnects when the script allows it. The rescue transport has no `reconnect` method, so the attempt always fails. In `send` that failure closes the session; in `resend` the error simply propagates and the session stays as it was.
- **Secure channel.** The channel is a pair of pure functions, `wrap` and `unwrap`. Key verification is a boolean input.
- **Python behaviour.** The model writes out the Python behaviour the code relies on:
  - `int.to_bytes` raising OverflowError (an `Option`);
  - slicing past the end (`PySlice`);
  - truthiness of `data` and of the enum argument;
  - `[0x00*3]` being the one-element list `[0]`, so an empty-data frame carries a single zero Lc byte and not three. The model follows the code here.

## Model

| member | source | states |
|---|---|---|
| Bytes.UInt16BigEndian | picokey/PicoKey.py:246-253 | `n.to_bytes(2, 'big')` succeeds exactly for 0 <= n < 65536 (OverflowError otherwise), and its two bytes recombine to n |
| Bytes.FromToBigEndian | picokey/PicoKey.py:354-358 | decoding a big-endian encoding of width w gives back any n < 256^w |
| Bytes.ToFromBigEndian | picokey/PicoKey.py:354-358 | re-encoding the value of a byte string at its own width gives the byte string back |
| Bytes.PySlice | picokey/PicoKey.py:354-358 | a Python slice equals the Dafny slice when the sequence is long enough, is the rest of the sequence when it ends inside the slice, is empty when it starts past the end, and is never longer than hi - lo |
| NamedIntEnum.FromString | picokey/core/enums.py:14-24 | a falsy argument gives UNKNOWN; a non-zero integer fails (`.strip` does not exist on int); a non-empty string gives the first member whose lower-cased name equals the stripped, lower-cased text, and UNKNOWN if none matches |
| NamedIntEnum.UnmatchedIsUnknown | picokey/core/enums.py:24 | a non-empty text that names no member falls back to UNKNOWN, or fails when the class has none |
| NamedIntEnum.UnknownOf | picokey/core/enums.py:16 | `cls.UNKNOWN` is the member named UNKNOWN; the lookup fails exactly when the class has no such member |
| NamedIntEnum.LookupName | picokey/core/enums.py:18-24 | once the key is formed, a key naming no member gives UNKNOWN, and otherwise the result is the first member, in definition order, whose lower-cased name is the key |
| NamedIntEnum.FindByName | picokey/core/enums.py:20-22 | the search gives the first member whose lower-cased name is the key, and nothing only when no member matches |
| NamedIntEnum.LookupIgnoresCaseAndPadding | picokey/core/enums.py:18-22 | the upper-cased name of any member, padded with whitespace on both sides, is looked up as that member |
| NamedIntEnum.StripPadded | picokey/core/enums.py:18 | `strip` removes exactly the surrounding whitespace of a trimmed, non-empty word |
| NamedIntEnum.LowerOfUpper | picokey/core/enums.py:18 | lower-casing after upper-casing is the same as lower-casing |
| NamedIntEnum.Str | picokey/core/enums.py:5-6 | `str(member)` is the member's name, and `from_string` of that text gives the member back |
| NamedIntEnum.NameFindsMember | picokey/core/enums.py:14-24 | every member of a class with distinct names is found from its own name |
| NamedIntEnum.ByValue | picokey/PicoKey.py:181-182 | `Platform(b)` / `Product(b)` give the member with that value, and fail exactly when no member has it |
| NamedIntEnum.ParseIntSpec | picokey/core/enums.py:9 | a spec parses exactly when it is decimal digits followed by one of `x X o d`; the letter selects base 16, 16, 8 or 10 and upper case only for `X`, the digits give the width, and a leading `0` asks for zero padding |
| NamedIntEnum.ParseIntSpecOfText | picokey/core/enums.py:9 | a width written in decimal, with or without a leading `0` flag and followed by a type letter, parses back to that width, that letter's base and case, and the flag |
| NamedIntEnum.Format | picokey/core/enums.py:8-11 | a spec without `x X o d` renders the member's name; an integer spec renders the digits of the magnitude in the base of the spec's last letter, hex letters upper case for `X` and lower case otherwise, with a minus sign for negatives, padded to exactly the larger of the width and the unpadded length: with the `0` flag by zeros after the sign, otherwise by spaces before it; the text reads back as the member's value |
| NamedIntEnum.RenderLayout | picokey/core/enums.py:9-11 | a rendered int is the sign and the magnitude's digits padded to exactly the larger of the width and their length, by zeros after the sign with the `0` flag and by spaces before it otherwise |
| NamedIntEnum.RenderCase | picokey/core/enums.py:9-11 | the padding and the sign add no letters, so a rendered number's letters are all in the case the spec asked for |
| NamedIntEnum.DigitsCase | picokey/core/enums.py:9-11 | digits above 9 are written as letters in the requested case |
| FormatExamples.FormatZeroPads | picokey/core/enums.py:9-11 | `format` of the value 1 with `04x` is `0001` |
| FormatExamples.FormatSpacePads | picokey/core/enums.py:9-11 | `format` of the value -26 with `5X` is `  -1A` |
| NamedIntEnum.RenderReadsBack | picokey/core/enums.py:10 | the rendered integer reads back as the value in its base and is at least as wide as the requested width |
| NamedIntEnum.ParseDigitsOfDigits | picokey/core/enums.py:10 | the digits of n in any base from 2 to 16 parse back to n |
| Apdu.BuildFrame | picokey/PicoKey.py:243-259 | the frame is built exactly when the data length and `ne` fit two bytes, and it reads back as the header, the data and the expected length; for a list command it is the frame of the list branch at lines 254-255, which `send` as written never reaches |
| Apdu.FrameLayout | picokey/PicoKey.py:243-259 | the frame, byte by byte: CLA and INS or the opcode list, then P1, P2, Lc (`[0]` without data, else 0 and the 2-byte length), the data and the 2-byte Le (`00 00` without `ne`) |
| Apdu.StatusCode | picokey/PicoKey.py:283 | `sw1 << 8 \| sw2` is below 65536 and splits back into SW1 and SW2 |
| Apdu.CounterWarningRange | picokey/PicoKey.py:285 | `sw1 == 0x63 and sw2 & 0xF0 == 0xC0` holds exactly for the codes 0x63C0 to 0x63CF |
| Apdu.GetResponse | picokey/PicoKey.py:296 | GET RESPONSE is the frame `00 C0 00 00 le`: CLA, P1 and P2 zero, INS 0xC0, and the announced length last |
| Apdu.SelectFrame | picokey/PicoKey.py:332-337 | the literal SELECT frames are SELECT by name of the rescue AID (P2 0x04) and of the standard AID (P2 0x00), each with Lc the AID length (0x08 and 0x0B) and Le 0 |
| RescueDriver.PowerOn | picokey/RescuePicoKey.py:121-124 | powering on issues one IccPowerOn unless the card is already on, issues no power-off and leaves the card on |
| RescueDriver.PowerOff | picokey/RescuePicoKey.py:126-129 | powering off issues one IccPowerOff unless the card is already off (so also when its state is unknown), issues no power-on and leaves the card off |
| RescueDriver.PowerOnOnce | picokey/RescuePicoKey.py:121-124 | powering on twice gives the same state as once, with at most one request more |
| RescueDriver.PowerOffOnce | picokey/RescuePicoKey.py:126-129 | powering off twice gives the same state as once, with one request more at most |
| RescueDriver.Transmit | picokey/RescuePicoKey.py:131-135 | a transmit powers on only a card that is not on, sends the APDU last, never powers off, keeps the device and endpoints, and splits a reply of two bytes or more into payload, SW1 and SW2 (IndexError below two) |
| RescueDriver.TransmitsPowerOnAtMostOnce | picokey/RescuePicoKey.py:131-133 | any run of transmits issues at most one power-on (none when already on) and no power-off |
| RescueDriver.Close | picokey/RescuePicoKey.py:86-89 | after close `has_card` is false; resources are disposed exactly when a device was held |
| RescueDriver.CloseIdempotent | picokey/RescuePicoKey.py:86-92 | a second close disposes nothing and changes nothing |
| RescueDriver.FindInterface | picokey/RescuePicoKey.py:43 | the interface lookup gives the first interface of the class, or none when no interface has it |
| RescueDriver.AnyConfigurationHas | picokey/RescuePicoKey.py:42-46 | the loop over configurations is true exactly when some configuration has an interface of the class |
| RescueDriver.FindClass | picokey/RescuePicoKey.py:36-46 | a device matches a class exactly when its own class is it or some configuration has an interface of it |
| RescueDriver.InMaskAgrees | picokey/RescuePicoKey.py:62-63 | the endpoint-direction mask test (bit 7 of the address) is the same as "address >= 0x80" |
| RescueDriver.TypeMaskAgrees | picokey/RescuePicoKey.py:65 | the interrupt transfer-type mask test (low two bits 0b11) is the same as "attributes mod 4 is 3" |
| RescueDriver.ScanIn | picokey/RescuePicoKey.py:61-68 | the loop keeps the last non-interrupt IN endpoint and the last interrupt IN endpoint, and keeps none only when there is none of that kind |
| RescueDriver.FirstOut | picokey/RescuePicoKey.py:69-72 | `epout[0]` is the first OUT endpoint, and there is none exactly when every endpoint is IN |
| RescueDriver.Classify | picokey/RescuePicoKey.py:61-73 | an interface binds exactly when it has a non-interrupt IN endpoint and an OUT endpoint; the binding uses the last such IN, the first OUT and, when present, the last interrupt IN |
| RescueDriver.ScanDevices | picokey/RescuePicoKey.py:55-78 | the loop raises exactly when some device's probe raises; it binds nothing exactly when no device binds; otherwise it holds the last device that binds, powered off, after one power-off per binding device |
| RescueDriver.Bind | picokey/RescuePicoKey.py:29-80 | the constructor raises "not found" exactly when no probe raises and no device binds; a probe that raises fails it with that other error; otherwise it holds the last binding device with its endpoints, the card off, no power-on issued and one power-off per binding device |
| RescueDriver.ProbeNeverNotFound | picokey/RescuePicoKey.py:55-80 | an error raised inside the device loop is never the "not found" error, which only the final test raises |
| RescueMonitor.Deliver | picokey/RescueMonitor.py:35-39 | `on_connect` delivers `(device, None)` and `on_disconnect` delivers `(None, device)`: exactly one slot is filled, the one of the notification's kind, with its device |
| RescueMonitor.New | picokey/RescueMonitor.py:42-49 | a new monitor starts running with no device seen |
| RescueMonitor.Start | picokey/RescueMonitor.py:51-56 | `start` leaves the monitor running and changes nothing else |
| RescueMonitor.Stop | picokey/RescueMonitor.py:58-61 | `stop` clears only the running flag |
| RescueMonitor.StartStopIdempotent | picokey/RescueMonitor.py:51-61 | starting or stopping twice is the same as once, and starting a running monitor changes nothing |
| RescueMonitor.Poll | picokey/RescueMonitor.py:63-82 | with no bound device a poll does nothing; otherwise it records presence and reports a connect exactly on absent-to-present and a disconnect exactly on present-to-absent, naming the found device or the bound one |
| RescueMonitor.RunAlternates | picokey/RescueMonitor.py:63-82 | over any run of polls the notifications alternate in kind, and the presence flag flips once per notification |
| RescueMonitor.RunCountsBalance | picokey/RescueMonitor.py:42-49 | from a fresh monitor, connects outnumber disconnects by 0 or 1 |
| RescueMonitor.AlternatingCount | picokey/RescueMonitor.py:70-80 | an alternating run that starts with a connect has ceil(n/2) connects |
| Session.Close | picokey/PicoKey.py:201-225 | close drops the transport and keeps the rest of the session; it stops the monitor exactly for a rescue transport and disposes the USB device exactly when that transport holds one; it removes the observer exactly for a watched card, disconnects exactly for a card, and releases the card exactly when the disconnect succeeds |
| Session.CloseIdempotent | picokey/PicoKey.py:201-205 | a second close does nothing |
| Session.Transmit | picokey/PicoKey.py:227-236 | a raw transmit answers exactly when a transport is open and the exchange succeeds; otherwise it reports no device or an invalid state, never a status error |
| Session.Exchange | picokey/PicoKey.py:266-281 | the frame is sent once, and once more after a reconnect only when the first attempt faults; the session is lost exactly when that reconnect fails |
| Session.Chain | picokey/PicoKey.py:293-299 | the GET RESPONSE loop sends only 5-byte frames, starting with GET RESPONSE for the announced length; an answer whose SW1 is not 0x61 ends it with that answer, and a transport fault ends it with that fault, which is not caught |
| Session.ChainCollects | picokey/PicoKey.py:293-299 | over a chain of n 0x61 answers the loop collects every chunk in order, the last one included, asking each time for the previous SW2 |
| Session.ChainBreaks | picokey/PicoKey.py:293-299 | a device that stops answering after n 0x61 answers fails the loop with the transport fault, after every GET RESPONSE up to the failing one was sent |
| Session.Settle | picokey/PicoKey.py:283-301 | 0x90xx passes untouched; any other reply, a 0x63Cx counter warning included, passes unchanged exactly when its code is 0x9000 or listed in `codes` and otherwise fails with its SW1 and SW2; after a 0x61 chain the same test applies to the chain's last reply; only 0x61 sends anything, and a failure is a status error or a transport fault |
| Session.Finish | picokey/PicoKey.py:303-308 | without a channel the answer is returned as payload and code; with one, the result is the unwrapped payload and code exactly when the unwrapped code is 0x9000 or listed, and otherwise a status error split from that code |
| Session.Send | picokey/PicoKey.py:238-239 | as written: a list command raises TypeError in the first log line, before the card check, leaving the session unchanged with nothing sent; an instruction byte goes through `Transfer` |
| Session.Transfer | picokey/PicoKey.py:240-308 | no transport gives "not found" with nothing sent; an unbuildable frame gives an overflow with nothing sent; otherwise the frame is remembered, the wire frame goes first, and a lost transport closes the session; a successful result passes the status policy; with a card and a frame the call is the frame's dispatch |
| Session.ListCommandRaises | picokey/PicoKey.py:239-259 | `send` of the two-byte list `80 1E` raises TypeError with or without a card, while the list branch it never reaches would have sent `80 1E p1 p2 00 00 00` |
| Session.Dispatch | picokey/PicoKey.py:259-281 | once the frame is built it is stored and sent, wrapped when a channel is open; the session is closed exactly when the first attempt faults and cannot reconnect, and then the events end with the steps of `close` and the result is "not found"; a failed retry is returned with the session kept; an answered exchange is concluded on the answer it got, with the scripted outcomes after that answer |
| Session.Conclude | picokey/PicoKey.py:283-308 | after the first answer no reconnect occurs; the result is the status policy's verdict, its failure as is, or its surviving reply passed through the secure-channel tail; the events are the policy's GET RESPONSE frames |
| Session.SendStatusPolicy | picokey/PicoKey.py:283-301 | without chaining one frame goes out and the frame is remembered; SW1 0x90 passes; any other code, a 0x63Cx warning included, passes only when it is 0x9000 or listed in `codes`, and otherwise raises with its SW1 and SW2 |
| Session.SendChains | picokey/PicoKey.py:293-301 | with SW1 0x61 the first payload is dropped, one GET RESPONSE per chunk asks for the previous SW2, the chunks are returned concatenated, and the chain's last status word must be 0x9000 or listed |
| Session.SendSecure | picokey/PicoKey.py:260-307 | with a secure channel the wrapped frame goes on the wire, the plain frame is stored and the answer is unwrapped |
| Session.SendSecureChains | picokey/PicoKey.py:293-308 | with a secure channel and a 0x61 chain, the chain's last status word is checked first, then the concatenated chunks are unwrapped and the unwrapped code decides |
| Session.SendSecureAnyStatus | picokey/PicoKey.py:283-308 | with a secure channel a first answer that is neither 0x90 nor 0x61 must have its own code accepted, and is then unwrapped, the unwrapped code deciding |
| Session.RetryRecovers | picokey/PicoKey.py:266-281 | a fault on a card that reconnects is retried once and the retry's answer is returned |
| Session.RetryFailsKeepsSession | picokey/PicoKey.py:276-281 | when the retry fails too, the call reports an invalid state and the session stays open |
| Session.RetryThenChains | picokey/PicoKey.py:266-301 | a retried transmission answered with 0x61 chains from the next outcome, and the chain's last status word decides as without a retry |
| Session.SendChainBreaks | picokey/PicoKey.py:293-301 | a fault inside the GET RESPONSE loop fails `send` with the transport fault and keeps the session |
| Session.RescueFaultCloses | picokey/PicoKey.py:268-275 | a fault on the rescue transport closes the session, stops its monitor and reports "not found" |
| Session.SmartcardFaultCloses | picokey/PicoKey.py:213-224 | a fault on a PC/SC card that will not reconnect closes the session: the card is disconnected, the observer removed exactly when one watched, the context released exactly when the disconnect succeeded, and "not found" is reported |
| Session.Resend | picokey/PicoKey.py:310-322 | resend sends only the stored frame (wrapped when a channel is open), first thing, reconnects exactly when the first attempt faults, and succeeds exactly when the first attempt answers or a reconnect succeeds and the retry answers, returning that answer; a failed reconnect is a reconnect error, a failed retry a transport error; a closed session fails |
| Session.ResendRepeatsSend | picokey/PicoKey.py:259-322 | after a `send` that keeps the session open, `resend` sends the plain frame `send` stored, the request's frame, through the same channel, and nothing else apart from one possible reconnect; without a channel it is the very frame `send` put on the wire |
| Session.OpenSecureChannel | picokey/PicoKey.py:324-330 | the channel is installed, and nothing else in the session changes, exactly when the token verifies; otherwise the call fails with an authentication error |
| Session.ChannelWrapsLaterSends | picokey/PicoKey.py:259-266 | after a verified channel is opened, `send` puts the wrapped frame on the wire and stores the plain frame; a token that fails to verify installs nothing |
| Session.OnCardEvent | picokey/PicoKey.py:97-102 | a card removal closes the session; any other event leaves it unchanged |
| Session.OnRescueEvent | picokey/PicoKey.py:157-164 | a reported disconnect closes the session; a connect leaves it unchanged |
| Session.MonitorTick | picokey/PicoKey.py:157-164 | a poll of a running rescue monitor delivers exactly the notification the poll produced; a connect notice, or none, only advances the monitor, and a disconnect closes the session; any other session is left as it was with nothing delivered |
| Session.UnplugClosesRescueSession | picokey/RescueMonitor.py:76-80 | a rescue session whose device vanishes is closed by the next poll |
| Discovery.FirstAnswering | picokey/PicoKey.py:132-149 | the scan picks the first reader with a card after readers without one; it finds no reader only when none has a card; a connection failure before a card propagates |
| Discovery.SelectReader | picokey/PicoKey.py:113-149 | no readers means rescue mode; a slot past the end fails; a valid slot is used as given; a negative slot scans |
| Discovery.ScanPicksFirstCard | picokey/PicoKey.py:132-149 | the scan with a negative slot picks the first reader with a card |
| Discovery.ReadIdentity | picokey/PicoKey.py:180-183 | platform, product and version are bytes 0 to 3 of the SELECT payload; a short payload or an unknown byte fails |
| Discovery.IdentityAsWritten | picokey/PicoKey.py:176-188 | as written, only a 9000 answer sets the identity and any other answer leaves it unset |
| Discovery.SelectNeverRaisesStatus | picokey/PicoKey.py:227-236 | `transmit` never raises a status error, so the `except APDUResponse` branch cannot run |
| Discovery.RejectedSelectLeavesIdentityUnset | picokey/PicoKey.py:176-188 | a SELECT answered 6A82 leaves the identity unset as written, and gives the baseline identity once corrected |
| Discovery.DecodeIdentity | picokey/PicoKey.py:176-188 | corrected: a non-9000 answer gives RP2040, UNKNOWN, version (0, 0); a 9000 answer is decoded as written |
| Discovery.IdentityRoundTrip | picokey/PicoKey.py:181-183 | any identity encoded as its four bytes, followed by anything, decodes back |
| Discovery.PlatformValuesDistinct | picokey/PicoKey.py:34-38 | each platform member is the one found by its value |
| Discovery.ProductValuesDistinct | picokey/PicoKey.py:40-44 | each product member is the one found by its value |
| Discovery.NumericTextIsUnknownProduct | picokey/core/enums.py:20-24 | the text "1" is not compared with member values and gives UNKNOWN |
| Discovery.PlatformHasNoDefault | picokey/PicoKey.py:34-38 | `Platform.from_string("")` fails, since Platform has no UNKNOWN member |
| Discovery.Attach | picokey/PicoKey.py:113-175 | an explicit slot opens a card with no connection type and no watcher; a scan opens a card watched by a card monitor; with no reader the rescue driver is bound or the constructor raises "not found" |
| Discovery.Open | picokey/PicoKey.py:79-188 | a failing reader selection or transport binding is the constructor's error; otherwise the session is the attached one, its transport after the SELECT, with the identity decoded from the SELECT answer and the corrected fallback for a non-9000 answer; a faulting SELECT or an undecodable identity fails the constructor; with force_rescue the rescue card is on after one power-on, with the SELECT as its last request |
| Discovery.SelectedCard | picokey/PicoKey.py:176-178 | the SELECT leaves a reader's card as it is, and on the rescue driver powers the card on unless it is on and records the SELECT APDU |
| Discovery.OpenFindsCard | picokey/PicoKey.py:132-188 | a scan opens the first reader with a card as a watched smartcard session whose identity is the one the device reports |
| Discovery.OpenFallsBackToRescue | picokey/PicoKey.py:151-188 | with no reader the constructor binds the rescue transport, whose card the SELECT powers on, and a refused SELECT leaves the baseline identity |
| Telemetry.PlainFrame | picokey/PicoKey.py:353 | a management command without data is the frame `80 ins p1 00 00 00 00` |
| Telemetry.Word | picokey/PicoKey.py:354-358 | the i-th 4-byte word is below 2^32, is the big-endian value of its four bytes, of the bytes that remain when the payload ends inside it, and 0 when the payload ends before it |
| Telemetry.FlashInfoOf | picokey/PicoKey.py:350-367 | a failed answer gives the all-zero flash information; an answer gives the five words at byte offsets 0, 4, 8, 12 and 16, each read from the bytes present |
| Telemetry.ShortAnswerKeepsWords | picokey/PicoKey.py:354-358 | an 8-byte answer yields its two words and zeros for the other three |
| Telemetry.FlashInfoRoundTrip | picokey/PicoKey.py:354-358 | five 32-bit words encoded big-endian decode back to the same flash information |
| Telemetry.ReadFlashInfo | picokey/PicoKey.py:350-367 | flash_info sends `80 1E 02 00 00 00 00` first, and gives zeros with nothing sent when closed; in every case the session and events are those of `send`, and the reading is the decoding of what `send` returned (zeros when it raised) |
| Telemetry.ReadFlashInfoOfDevice | picokey/PicoKey.py:350-367 | a device answering the encoded words with 9000 yields exactly that flash information |
| Telemetry.ReadFlashInfoSecure | picokey/PicoKey.py:350-367 | under a secure channel, an answer that unwraps to the encoded words with 9000 yields exactly that flash information |
| Telemetry.ReadFlashInfoRejected | picokey/PicoKey.py:350-367 | a status word `send` refuses makes flash_info report zeros, with the session kept open and the request stored |
| Telemetry.SecureInfoOf | picokey/PicoKey.py:369-376 | the secure-boot state is bytes 0 to 2 (enabled, locked, boot key); a shorter payload is an IndexError; transport errors propagate |
| Telemetry.SecureInfoRoundTrip | picokey/PicoKey.py:369-376 | the three encoded bytes decode back |
| Telemetry.ReadSecureInfo | picokey/PicoKey.py:369-376 | secure_info sends `80 1E 03 00 00 00 00` first, and fails with nothing sent when closed; in every case the session and events are those of `send`, and the result decodes what `send` returned or carries its exception |
| Telemetry.ReadSecureInfoOfDevice | picokey/PicoKey.py:369-376 | a device answering the encoded bytes yields them under the status policy |
| Telemetry.ReadSecureInfoSecure | picokey/PicoKey.py:369-376 | under a secure channel the bytes come from the unwrapped answer, and an unwrapped status other than 9000 is raised as that status |
| Telemetry.SecureBootFrame | picokey/PicoKey.py:378-381 | secure_boot sends `80 1C 02 00 00 00 02 idx lock 00 00`, whose data reads back as the index modulo 256 and the lock flag; indices 256 apart give the same request |
| Telemetry.RebootFrame | picokey/PicoKey.py:383-385 | reboot sends `80 1F bootsel 00 00 00 00` |

## Left out

- `connect_with_timeout` (picokey/PicoKey.py:51-75): threads and timeouts are not modelled. A reader's connection outcome is an input: card, no card, or failure.
- The pyscard `CardMonitor` and observer registration: a scanned session records `CardWatcher`, and card events are delivered by `Session.OnCardEvent`.
- Threads, `time.sleep` and the poll interval of `RescueMonitor`: `_run` is modelled one poll at a time. The race between `stop` and a poll in progress (the join is commented out) is not modelled.
- pyusb I/O: `usb.core.find`, `set_configuration`, `dispose_resources`, and `read`/`write`/`exchange` (picokey/RescuePicoKey.py:103-119). The USB enumeration and each answer are inputs. ICCD requests are recorded by kind (power on, power off, send APDU) and are not encoded.
- Session.Transfer: the rescue transport's power flag and ICCD request log are not threaded through a session call. The driver's power behaviour is proved separately in `RescueDriver`.
- Session.ResendRepeatsSend: claims that `resend` repeats the very wire frame of `send` only without a secure channel. With a channel the model's `wrap` is a pure function, whereas `wrap_apdu` may keep state such as a sequence counter, so only the plain frame is claimed to repeat.
- Secure channel cryptography (key derivation, `verify_token`, `wrap_apdu`, `unwrap_rapdu`): these are functions and a boolean supplied to the model. `wrap` and `unwrap` are stateless, so any counter the channel keeps between messages is not modelled. No round trip between wrap and unwrap is claimed.
- `phy` and `PhyData` (picokey/PicoKey.py:339-348): PhyData is not part of this model.
- The `APDUResponse`, `SWCodes` and exception classes: they appear as constructors of `Session.Error` and `Discovery.OpenError`.
- Logging, `__str__`, `__exit__`, `__del__` and the trivial properties `device`, `has_device` and `connection_type`: they are fields of the model or are not modelled.
- NamedIntEnum.Format: covers only integer specs of the form `[0][width]` followed by `x`, `X`, `o` or `d`. Other specs containing one of those letters are reported as `OutsideModel`, not rendered.
- NamedIntEnum.FromString: `strip` is modelled for ASCII and Latin-1 whitespace, and `lower` for the ASCII letters A to Z only. Python would also lower-case other letters. Enum aliases are not modelled.
- Apdu.BuildFrame: requires a command list to have at least two bytes, and so does `Session.Transfer`. `send` as written never builds a frame from a list, since line 239 raises TypeError first (`Session.Send`). For a one-byte list, even the list branch would fail: the trace at line 261 formats a nested list.
- Session.Chain: the GET RESPONSE loop at picokey/PicoKey.py:295-298 repeats for as long as the device answers 0x61, with no bound. In the model the script is finite, and a transmission past its end faults, so every chain ends, in the worst case as a transport fault.
- Session.Close: requires a coherent session: a rescue transport comes with its monitor, as every constructor path ensures. `close` dereferences that monitor.
- The constructor's partly initialised object after an exception: `Discovery.Open` returns only the error.
- `picokey/__init__.py`: it only re-exports names.

## Findings

| source | as written | input that shows it | evidently intended | confidence | as-written member | corrected member |
|---|---|---|---|---|---|---|
| picokey/PicoKey.py:239-259 | the first log line evaluates `hex(command)` before the card check, and `hex` of a list raises TypeError, so the branch that accepts a list of command bytes (lines 254-255) can never run | `send([0x80, 0x1E])`, with or without a connected device | a list command is sent as a frame with the list in place of CLA and INS | not executed | Session.Send, Session.ListCommandRaises | Session.Transfer |
| picokey/PicoKey.py:176-188 | the baseline identity is assigned only in an `except APDUResponse` handler, but `select_applet` goes through `transmit`, which raises only PicoKeyNotFoundError or PicoKeyInvalidStateError and never inspects the status word; a non-9000 answer therefore leaves `platform`, `product` and `version` unassigned | a rescue-applet SELECT answered with status 6A82 | a device that rejects the SELECT is reported as RP2040, UNKNOWN, version (0, 0) | not executed | Discovery.IdentityAsWritten, Discovery.RejectedSelectLeavesIdentityUnset | Discovery.DecodeIdentity |

=== FILE: apdu.dfy ===
/** Command frames and status words as `PicoKey.send` builds and reads them
    (picokey/PicoKey.py): the extended-length command layout of ISO/IEC
    7816-4 section 5.1, the SW1/SW2 policy constants, GET RESPONSE, and the
    two SELECT frames. */
module Apdu {
  import opened Wrappers
  import opened Bytes

  /** `send`'s `command` argument: one instruction byte, put after the class
      byte, or a list of two or more bytes that replaces class and
      instruction together. */
  datatype Command = Ins(ins: Byte) | Opcode(bytes: seq<Byte>)

  /** A one-element list would be spliced in as a nested list; the model
      admits lists of two bytes or more only. */
  predicate WellFormedCommand(c: Command) {
    c.Opcode? ==> |c.bytes| > 1
  }

  /** The arguments of one `send` call. `data` of None and of [] behave the
      same (both are falsy), so both are the empty sequence here. */
  datatype Request = Request(
    command: Command,
    cla: Byte,
    p1: Byte,
    p2: Byte,
    ne: Option<int>,
    data: seq<Byte>,
    codes: seq<int>)

  /** A device reply: `(response, sw1, sw2)` from a card's `transmit`. */
  datatype Reply = Reply(payload: seq<Byte>, sw1: Byte, sw2: Byte)

  /** The fields an extended-length frame carries. */
  datatype Fields = Fields(header: seq<Byte>, data: seq<Byte>, ne: nat)

  // ---------------------------------------------------------------------
  // Building a frame
  // ---------------------------------------------------------------------

  function Header(req: Request): (r: seq<Byte>)
    requires WellFormedCommand(req.command)
    ensures |r| >= 4
  {
    var ci := match req.command
      case Ins(i) => [req.cla, i]
      case Opcode(b) => b;
    ci + [req.p1, req.p2]
  }

  /** Lc: `[0x00] + len(data).to_bytes(2, 'big')` for non-empty data, and
      `[0x00*3]`, which is the one byte `[0]`, otherwise. */
  function LcField(data: seq<Byte>): Option<seq<Byte>> {
    if data == [] then Some([0])
    else match UInt16BigEndian(|data|)
      case None => None
      case Some(l) => Some([0] + l)
  }

  /** Le: `[0x00, 0x00]` without `ne`, else `ne.to_bytes(2, 'big')`. */
  function LeField(ne: Option<int>): Option<seq<Byte>> {
    match ne
    case None => Some([0, 0])
    case Some(n) => UInt16BigEndian(n)
  }

  /** The expected length a frame announces: 0 ("any amount") without `ne`. */
  function NeOf(ne: Option<int>): int {
    match ne
    case None => 0
    case Some(n) => n
  }

  /** The frame `send` assembles (picokey/PicoKey.py:243-259); `None` where
      `int.to_bytes` raises OverflowError, before anything is sent. The frame
      reads back, with the extended-length reader below, as exactly the
      request's header, data and expected length. */
  function BuildFrame(req: Request): (r: Option<seq<Byte>>)
    requires WellFormedCommand(req.command)
    ensures r.Some? <==> |req.data| < 65536 && (req.ne.Some? ==> 0 <= req.ne.value < 65536)
    ensures r.Some? ==>
      ReadExtended(r.value, |Header(req)|) == Some(Fields(Header(req), req.data, NeOf(req.ne)))
  {
    match (LcField(req.data), LeField(req.ne))
    case (Some(lc), Some(le)) =>
      var h := Header(req);
      var f := h + lc + req.data + le;
      BuildFrameReadsBack(req, h, lc, le, f);
      Some(f)
    case _ => None
  }

  /** The frame byte by byte: CLA and INS, or the raw opcode list in their
      place; P1 and P2; a single zero byte when there is no data, otherwise a
      zero byte, the big-endian data length and the data; then Le, the
      big-endian expected length or two zero bytes when none is given. */
  lemma FrameLayout(req: Request)
    requires WellFormedCommand(req.command) && BuildFrame(req).Some?
    ensures var head := match req.command
              case Ins(i) => [req.cla, i]
              case Opcode(b) => b;
      var lc := if req.data == [] then [0] else [0, |req.data| / 256, |req.data| % 256];
      var le := if req.ne.None? then [0, 0] else [req.ne.value / 256, req.ne.value % 256];
      BuildFrame(req).value == head + [req.p1, req.p2] + lc + req.data + le
  {
    if req.data != [] {
      SplitWord(UInt16BigEndian(|req.data|).value, |req.data|);
    }
    if req.ne.Some? {
      SplitWord(UInt16BigEndian(req.ne.value).value, req.ne.value);
    }
  }

  lemma SplitWord(w: seq<Byte>, n: int)
    requires |w| == 2 && (w[0] as int) * 256 + w[1] == n
    ensures w == [n / 256, n % 256]
  {
  }

  lemma BuildFrameReadsBack(req: Request, h: seq<Byte>, lc: seq<Byte>, le: seq<Byte>, f: seq<Byte>)
    requires WellFormedCommand(req.command)
    requires h == Header(req) && LcField(req.data) == Some(lc) && LeField(req.ne) == Some(le)
    requires f == h + lc + req.data + le
    ensures ReadExtended(f, |h|) == Some(Fields(h, req.data, NeOf(req.ne)))
  {
    assert |le| == 2 && FromBigEndian(le) == NeOf(req.ne) by {
      match req.ne
      case None =>
        assert le[..1] == [0];
      case Some(v) => FromToBigEndian(v, 2);
    }
    if req.data == [] {
      ReadsBackWithoutData(h, le, f);
    } else {
      var l := ToBigEndian(|req.data|, 2);
      FromToBigEndian(|req.data|, 2);
      ReadsBackWithData(h, l, req.data, le, f);
    }
  }

  lemma ReadsBackWithoutData(h: seq<Byte>, le: seq<Byte>, f: seq<Byte>)
    requires |le| == 2 && f == h + [0] + [] + le
    ensures ReadExtended(f, |h|) == Some(Fields(h, [], FromBigEndian(le)))
  {
    var n := |h|;
    assert f[..n] == h;
    assert f[n + 1..] == le;
  }

  lemma ReadsBackWithData(h: seq<Byte>, l: seq<Byte>, data: seq<Byte>, le: seq<Byte>, f: seq<Byte>)
    requires |le| == 2 && |l| == 2 && FromBigEndian(l) == |data| && data != []
    requires f == h + ([0] + l) + data + le
    ensures ReadExtended(f, |h|) == Some(Fields(h, data, FromBigEndian(le)))
  {
    var n := |h|;
    assert |f| == n + 3 + |data| + 2;
    assert f[..n] == h;
    assert f[n] == 0;
    assert f[n + 1..n + 3] == l;
    assert f[n + 3..n + 3 + |data|] == data;
    assert f[|f| - 2..] == le;
  }

  // ---------------------------------------------------------------------
  // Reading a frame back
  // ---------------------------------------------------------------------

  /** Reads an extended-length command frame whose header is `headerLen`
      bytes long: a zero byte, then either just a 2-byte Le (no data) or a
      non-zero 2-byte Lc, that many data bytes and a 2-byte Le. */
  function ReadExtended(f: seq<Byte>, headerLen: nat): Option<Fields> {
    if |f| < headerLen + 3 || f[headerLen] != 0 then None
    else if |f| == headerLen + 3 then
      Some(Fields(f[..headerLen], [], FromBigEndian(f[headerLen + 1..])))
    else
      var lc := FromBigEndian(f[headerLen + 1..headerLen + 3]);
      if lc == 0 || |f| != headerLen + 3 + lc + 2 then None
      else Some(Fields(f[..headerLen], f[headerLen + 3..headerLen + 3 + lc], FromBigEndian(f[|f| - 2..])))
  }

  // ---------------------------------------------------------------------
  // Status words
  // ---------------------------------------------------------------------

  const SwSuccess := 0x9000
  const MoreData: Byte := 0x61

  /** `sw1 << 8 | sw2`: the 16-bit status code, which splits back into the
      two status bytes. */
  function StatusCode(sw1: Byte, sw2: Byte): (c: nat)
    ensures c < 65536 && c / 256 == sw1 && c % 256 == sw2
  {
    sw1 * 256 + sw2
  }

  /** The final test of `send`: the code is 0x9000 or one the caller lists. */
  predicate Accepted(code: int, codes: seq<int>) {
    code in codes || code == SwSuccess
  }

  /** `sw1 == 0x63 and sw2 & 0xF0 == 0xC0`: a retry-counter warning. */
  predicate CounterWarning(sw1: Byte, sw2: Byte) {
    sw1 == 0x63 && (sw2 as bv8) & 0xF0 == 0xC0
  }

  /** The warning codes are exactly 0x63C0 to 0x63CF. */
  lemma CounterWarningRange(sw1: Byte, sw2: Byte)
    ensures CounterWarning(sw1, sw2) <==> StatusCode(sw1, sw2) / 16 == 0x63C
  {
    var b := sw2 as bv8;
    assert (b & 0xF0 == 0xC0) <==> (0xC0 <= sw2 <= 0xCF) by {
      if 0xC0 <= sw2 <= 0xCF {
        assert b & 0xF0 == 0xC0;
      }
    }
  }

  /** GET RESPONSE (class 0x00, INS 0xC0, P1 = P2 = 0) asking for `le`
      bytes, as a short frame of ISO/IEC 7816-4. */
  function GetResponse(le: Byte): (f: seq<Byte>)
    ensures f == [0x00, 0xC0, 0x00, 0x00, le]
    ensures |f| == 5 && f[1] == 0xC0 && f[4] == le
  {
    [0x00, 0xC0, 0x00, 0x00, le]
  }

  // ---------------------------------------------------------------------
  // SELECT by application identifier
  // ---------------------------------------------------------------------

  const RescueAid: seq<Byte> := [0xA0, 0x58, 0x3F, 0xC1, 0x9B, 0x7E, 0x4F, 0x21]
  const StandardAid: seq<Byte> := [0xE8, 0x2B, 0x06, 0x01, 0x04, 0x01, 0x81, 0xC3, 0x1F, 0x02, 0x01]

  /** A short SELECT-by-name frame: header, Lc, the identifier, Le = 0. */
  function SelectByName(p2: Byte, aid: seq<Byte>): seq<Byte>
    requires |aid| < 256
  {
    [0x00, 0xA4, 0x04, p2, |aid|] + aid + [0x00]
  }

  /** The frame `select_applet` sends (picokey/PicoKey.py:332-337), written
      out as the literal bytes of the source. */
  function SelectFrame(rescue: bool): (f: seq<Byte>)
    ensures rescue ==> f == SelectByName(0x04, RescueAid)
    ensures !rescue ==> f == SelectByName(0x00, StandardAid)
  {
    if rescue then [0x00, 0xA4, 0x04, 0x04, 0x08, 0xA0, 0x58, 0x3F, 0xC1, 0x9B, 0x7E, 0x4F, 0x21, 0x00]
    else [0x00, 0xA4, 0x04, 0x00, 0x0B, 0xE8, 0x2B, 0x06, 0x01, 0x04, 0x01, 0x81, 0xC3, 0x1F, 0x02, 0x01, 0x00]
  }
}

=== FILE: bytes.dfy ===
/** Byte sequences and the two integer codecs the client uses:
    `int.to_bytes(width, 'big')` and `int.from_bytes(s, 'big')`, plus Python's
    clamping slice `s[lo:hi]`. */
module Bytes {
  import opened Wrappers

  type Byte = b: int | 0 <= b < 256

  /** 256 to the power n: the number of values a width-n big-endian field holds. */
  function Pow256(n: nat): (r: nat)
    ensures r >= 1
  {
    if n == 0 then 1 else 256 * Pow256(n - 1)
  }

  /** `n.to_bytes(width, 'big')` for a value that fits in `width` bytes. */
  function ToBigEndian(n: nat, width: nat): (r: seq<Byte>)
    requires n < Pow256(width)
    ensures |r| == width
  {
    if width == 0 then []
    else
      assert n / 256 < Pow256(width - 1);
      ToBigEndian(n / 256, width - 1) + [n % 256]
  }

  /** `int.from_bytes(s, 'big')`; the empty sequence decodes to 0. */
  function FromBigEndian(s: seq<Byte>): (r: nat)
    ensures r < Pow256(|s|)
  {
    if s == [] then 0
    else
      var hi := FromBigEndian(s[..|s| - 1]);
      assert hi * 256 + s[|s| - 1] < 256 * Pow256(|s| - 1) by {
        assert hi <= Pow256(|s| - 1) - 1;
        assert hi * 256 <= (Pow256(|s| - 1) - 1) * 256;
      }
      hi * 256 + s[|s| - 1]
  }

  /** Decoding what was encoded gives the value back. */
  lemma {:induction false} FromToBigEndian(n: nat, width: nat)
    requires n < Pow256(width)
    ensures FromBigEndian(ToBigEndian(n, width)) == n
  {
    if width > 0 {
      var s := ToBigEndian(n, width);
      assert s[..|s| - 1] == ToBigEndian(n / 256, width - 1);
      FromToBigEndian(n / 256, width - 1);
    }
  }

  /** Encoding what was decoded, at the same width, gives the bytes back. */
  lemma {:induction false} ToFromBigEndian(s: seq<Byte>)
    ensures ToBigEndian(FromBigEndian(s), |s|) == s
  {
    if s != [] {
      var init := s[..|s| - 1];
      ToFromBigEndian(init);
      var n := FromBigEndian(s);
      assert n / 256 == FromBigEndian(init);
      assert n % 256 == s[|s| - 1];
      assert s == init + [s[|s| - 1]];
    }
  }

  /** `n.to_bytes(2, 'big')`: Python raises OverflowError (here `None`) for a
      negative value or one of 65536 and above. */
  function UInt16BigEndian(n: int): (r: Option<seq<Byte>>)
    ensures r.Some? <==> 0 <= n < 65536
    ensures r.Some? ==> |r.value| == 2 && (r.value[0] as int) * 256 + r.value[1] == n
  {
    if 0 <= n < Pow256(2) then
      FromToBigEndian(n, 2);
      var s := ToBigEndian(n, 2);
      assert FromBigEndian(s[..1]) == s[0];
      Some(s)
    else None
  }

  /** Python's `s[lo:hi]` for non-negative bounds: both ends are clamped to
      the length, so a short sequence yields a shorter (possibly empty) slice. */
  function PySlice<T>(s: seq<T>, lo: nat, hi: nat): (r: seq<T>)
    requires lo <= hi
    ensures |s| >= hi ==> r == s[lo..hi]
    ensures |r| <= hi - lo
    ensures |s| <= lo ==> r == []
    ensures lo < |s| < hi ==> r == s[lo..]
  {
    var a := if lo <= |s| then lo else |s|;
    var b := if hi <= |s| then hi else |s|;
    s[a..b]
  }
}

=== FILE: discovery.dfy ===
/** Opening a `PicoKey` session (picokey/PicoKey.py:81-188): choosing a
    PC/SC reader, falling back to the rescue interface, and reading the
    device identity from the rescue applet's SELECT answer. */
module Discovery {
  import opened Wrappers
  import opened Bytes
  import opened Apdu
  import NamedIntEnum
  import RescueDriver
  import RescueMonitor
  import Session

  /** What connecting to one reader yields: a connection, the "no card"
      exception (caught), or any other failure (not caught). */
  datatype ReaderOutcome = CardPresent | NoCard | ConnectFailed

  /** The reader the constructor settles on. `Explicit`: the caller's slot;
      `Scanned`: the first reader with a card; `NoReader`: none, so the
      rescue interface is tried. */
  datatype Pick = Explicit(slot: nat) | Scanned(index: nat) | NoReader

  /** The exceptions the constructor raises. */
  datatype OpenError =
    | SlotOutOfRange   // Exception('Slot number out of range')
    | NoCardInSlot     // Exception('No card in reader slot …')
    | ReaderFault      // a connection failure other than "no card"
    | NoDevice         // PicoKeyNotFoundError('time-out: no card inserted')
    | SelectFault      // PicoKeyInvalidStateError from the SELECT transmit
    | IdentityShort    // IndexError: the SELECT answer is too short
    | IdentityUnknown  // ValueError: a byte names no enum member

  /** The first reader, from `i` on, that does not answer "no card". */
  function FirstAnswering(readers: seq<ReaderOutcome>, i: nat): (r: Result<Pick, OpenError>)
    requires i <= |readers|
    ensures r.Success? ==> r.value.NoReader? || r.value.Scanned?
    ensures r.Success? && r.value.Scanned? ==>
      i <= r.value.index < |readers| && readers[r.value.index] == CardPresent
      && forall j :: i <= j < r.value.index ==> readers[j] == NoCard
    ensures r == Success(NoReader) <==> forall j :: i <= j < |readers| ==> readers[j] == NoCard
    ensures r.Failure? ==>
      && r.error == ReaderFault
      && exists k :: (&& i <= k < |readers| && readers[k] == ConnectFailed
                      && forall j :: i <= j < k ==> readers[j] == NoCard)
    decreases |readers| - i
  {
    if i == |readers| then Success(NoReader)
    else match readers[i]
      case CardPresent => Success(Scanned(i))
      case NoCard => FirstAnswering(readers, i + 1)
      case ConnectFailed => Failure(ReaderFault)
  }

  /** Reader selection (picokey/PicoKey.py:119-149). The slot is checked only
      when some reader exists; a negative slot scans all readers in order;
      a failing reader list counts as empty. */
  function SelectReader(readers: Option<seq<ReaderOutcome>>, slot: int): (r: Result<Pick, OpenError>)
    ensures var rs := readers.GetOr([]);
      && (rs == [] ==> r == Success(NoReader))
      && (rs != [] && slot >= |rs| ==> r == Failure(SlotOutOfRange))
      && (rs != [] && 0 <= slot < |rs| ==>
            r == (match rs[slot]
                  case CardPresent => Success(Explicit(slot))
                  case NoCard => Failure(NoCardInSlot)
                  case ConnectFailed => Failure(ReaderFault)))
      && (slot < 0 ==> r == FirstAnswering(rs, 0))
  {
    var rs := readers.GetOr([]);
    if rs == [] then Success(NoReader)
    else if slot >= 0 && slot >= |rs| then Failure(SlotOutOfRange)
    else if slot >= 0 then
      match rs[slot]
      case CardPresent => Success(Explicit(slot))
      case NoCard => Failure(NoCardInSlot)
      case ConnectFailed => Failure(ReaderFault)
    else FirstAnswering(rs, 0)
  }

  /** With a negative slot the chosen reader is the first one with a card,
      and the readers before it had none. */
  lemma {:induction false} ScanPicksFirstCard(rs: seq<ReaderOutcome>, k: nat)
    requires k < |rs| && rs[k] == CardPresent
    requires forall j :: 0 <= j < k ==> rs[j] == NoCard
    ensures SelectReader(Some(rs), -1) == Success(Scanned(k))
  {
    ScanFrom(rs, 0, k);
  }

  lemma {:induction false} ScanFrom(rs: seq<ReaderOutcome>, i: nat, k: nat)
    requires i <= k < |rs| && rs[k] == CardPresent
    requires forall j :: i <= j < k ==> rs[j] == NoCard
    ensures FirstAnswering(rs, i) == Success(Scanned(k))
    decreases k - i
  {
    if i < k {
      ScanFrom(rs, i + 1, k);
    }
  }

  // ---------------------------------------------------------------------
  // Identity
  // ---------------------------------------------------------------------

  /** The identity the code falls back to: RP2040, UNKNOWN product, 0.0. */
  const Baseline := Session.Identity(Session.Platform[0], Session.Product[0], 0, 0)

  /** Reading the identity from a 9000 SELECT answer: platform, product, major
      and minor version in the first four bytes, each enum byte looked up by
      value, read in the order the code reads them. */
  function ReadIdentity(payload: seq<Byte>): (r: Result<Session.Identity, OpenError>)
    ensures r.Success? ==>
      && |payload| >= 4
      && r.value.platform in Session.Platform && r.value.platform.value == payload[0]
      && r.value.product in Session.Product && r.value.product.value == payload[1]
      && r.value.major == payload[2] && r.value.minor == payload[3]
    ensures |payload| < 4 && r.Failure? ==> r.error == IdentityShort || r.error == IdentityUnknown
    ensures |payload| == 0 ==> r == Failure(IdentityShort)
  {
    if |payload| < 1 then Failure(IdentityShort)
    else match NamedIntEnum.ByValue(Session.Platform, payload[0])
      case None => Failure(IdentityUnknown)
      case Some(p) =>
        if |payload| < 2 then Failure(IdentityShort)
        else match NamedIntEnum.ByValue(Session.Product, payload[1])
          case None => Failure(IdentityUnknown)
          case Some(q) =>
            if |payload| < 4 then Failure(IdentityShort)
            else Success(Session.Identity(p, q, payload[2], payload[3]))
  }

  /** The identity as the constructor leaves it. */
  datatype IdentityOutcome = Set(identity: Session.Identity) | Unset | Raised(error: OpenError)

  /** The identity block as written (picokey/PicoKey.py:176-188): only a 9000
      answer sets the attributes. Its fallback to the baseline handles
      `APDUResponse`, which `transmit` never raises, so any other status
      word leaves platform, product and version unset. */
  function IdentityAsWritten(reply: Reply): (r: IdentityOutcome)
    ensures r.Unset? <==> !(reply.sw1 == 0x90 && reply.sw2 == 0)
    ensures r.Set? ==> Success(r.identity) == ReadIdentity(reply.payload)
  {
    if reply.sw1 == 0x90 && reply.sw2 == 0 then
      match ReadIdentity(reply.payload)
      case Success(id) => Set(id)
      case Failure(e) => Raised(e)
    else Unset
  }

  /** The SELECT goes through `transmit`, which reports every transport
      failure as an invalid state and never raises a status word, so the
      `APDUResponse` handler never runs. */
  lemma SelectNeverRaisesStatus(s: Session.Session, o: Session.TxOutcome)
    ensures Session.Transmit(s, o).Failure? ==> !Session.Transmit(s, o).error.Status?
  {
  }

  /** A rejected SELECT (0x6A82, file not found) leaves the identity unset
      instead of falling back to the baseline. */
  lemma RejectedSelectLeavesIdentityUnset(payload: seq<Byte>)
    ensures IdentityAsWritten(Reply(payload, 0x6A, 0x82)) == Unset
    ensures DecodeIdentity(Reply(payload, 0x6A, 0x82)) == Success(Baseline)
  {
  }

  /** The identity as evidently intended: a status word other than 9000
      yields the baseline. */
  function DecodeIdentity(reply: Reply): (r: Result<Session.Identity, OpenError>)
    ensures !(reply.sw1 == 0x90 && reply.sw2 == 0) ==> r == Success(Baseline)
    ensures reply.sw1 == 0x90 && reply.sw2 == 0 ==> r == ReadIdentity(reply.payload)
    ensures IdentityAsWritten(reply).Set? ==> r == Success(IdentityAsWritten(reply).identity)
  {
    if reply.sw1 == 0x90 && reply.sw2 == 0 then ReadIdentity(reply.payload) else Success(Baseline)
  }

  /** The four identity bytes a device reports. */
  function IdentityBytes(id: Session.Identity): seq<Byte>
    requires id.platform in Session.Platform && id.product in Session.Product
  {
    [id.platform.value, id.product.value, id.major, id.minor]
  }

  /** Any identity a device reports is decoded back, whatever follows it. */
  lemma IdentityRoundTrip(id: Session.Identity, rest: seq<Byte>)
    requires id.platform in Session.Platform && id.product in Session.Product
    ensures DecodeIdentity(Reply(IdentityBytes(id) + rest, 0x90, 0x00)) == Success(id)
  {
    var payload := IdentityBytes(id) + rest;
    assert payload[0] == id.platform.value && payload[1] == id.product.value;
    PlatformValuesDistinct(id.platform);
    ProductValuesDistinct(id.product);
  }

  lemma PlatformValuesDistinct(m: NamedIntEnum.Member)
    requires m in Session.Platform
    ensures NamedIntEnum.ByValue(Session.Platform, m.value) == Some(m)
  {
  }

  lemma ProductValuesDistinct(m: NamedIntEnum.Member)
    requires m in Session.Product
    ensures NamedIntEnum.ByValue(Session.Product, m.value) == Some(m)
  {
  }

  /** A numeric string is looked up by name only: "1" is the UNKNOWN
      product, not HSM. */
  lemma NumericTextIsUnknownProduct()
    ensures NamedIntEnum.FromString(Session.Product, NamedIntEnum.Text("1")) == Success(Session.Product[0])
  {
    NamedIntEnum.StripOfTrimmed("1");
    NoOneLetterProduct(NamedIntEnum.Lower("1"));
    NamedIntEnum.UnmatchedIsUnknown(Session.Product, "1");
    assert NamedIntEnum.UnknownOf(Session.Product) == Success(Session.Product[0]);
  }

  /** Every product name is longer than one character. */
  lemma NoOneLetterProduct(key: string)
    requires |key| == 1
    ensures NamedIntEnum.FindByName(Session.Product, key).None?
  {
    forall m | m in Session.Product
      ensures NamedIntEnum.Lower(m.name) != key
    {
      assert |m.name| > 1;
    }
  }

  /** `Platform` has no UNKNOWN member, so a falsy argument has no default:
      the lookup raises instead. */
  lemma PlatformHasNoDefault()
    ensures NamedIntEnum.FromString(Session.Platform, NamedIntEnum.Text("")) == Failure(NamedIntEnum.NoUnknownMember)
  {
  }

  // ---------------------------------------------------------------------
  // The constructor
  // ---------------------------------------------------------------------

  /** The session before the SELECT, for the reader chosen. */
  function Attach(pick: Pick, usb: Option<seq<RescueDriver.UsbDevice>>): (r: Result<Session.Session, OpenError>)
    ensures r.Success? ==>
      && Session.Coherent(r.value) && r.value.card.Some?
      && r.value.lastFrame == [] && r.value.channel.None?
    ensures pick.Explicit? ==>
      && r.Success? && r.value.card == Some(Session.Smartcard)
      && r.value.connection == Session.UnknownConnection && r.value.watcher.NoWatcher?
    ensures pick.Scanned? ==>
      && r.Success? && r.value.card == Some(Session.Smartcard)
      && r.value.connection == Session.SmartcardConnection && r.value.watcher.CardWatcher?
    ensures pick.NoReader? ==> (r.Failure? <==> RescueDriver.Bind(usb).Failure?)
    ensures pick.NoReader? && r.Failure? ==> r.error == NoDevice
    ensures pick.NoReader? && r.Success? ==>
      && r.value.card == Some(Session.Rescue(RescueDriver.Bind(usb).value))
      && r.value.connection == Session.RescueConnection
      && r.value.watcher == Session.RescueWatcher(RescueMonitor.New(true))
  {
    match pick
    case Explicit(_) =>
      Success(Session.Session(Some(Session.Smartcard), Session.UnknownConnection, Session.NoWatcher, [], None, Baseline))
    case Scanned(_) =>
      Success(Session.Session(Some(Session.Smartcard), Session.SmartcardConnection, Session.CardWatcher, [], None, Baseline))
    case NoReader =>
      match RescueDriver.Bind(usb)
      case Failure(_) => Failure(NoDevice)
      case Success(d) =>
        Success(Session.Session(Some(Session.Rescue(d)), Session.RescueConnection,
                                Session.RescueWatcher(RescueMonitor.New(true)), [], None, Baseline))
  }

  /** `PicoKey(slot, force_rescue)` (picokey/PicoKey.py:81-188), with the
      corrected identity fallback. `readers` is the reader list (None when
      listing fails), `usb` the USB enumeration and `select` the outcome of
      the rescue-applet SELECT every constructor sends; on the rescue
      transport that SELECT goes through the driver's `transmit`. */
  function Open(slot: int, forceRescue: bool, readers: Option<seq<ReaderOutcome>>,
                usb: Option<seq<RescueDriver.UsbDevice>>, select: Session.TxOutcome): (r: Result<Session.Session, OpenError>)
    ensures r.Success? ==>
      && Session.Coherent(r.value) && r.value.card.Some?
      && r.value.lastFrame == [] && r.value.channel.None?
    ensures r.Success? ==> select.Answer? && Success(r.value.identity) == DecodeIdentity(select.reply)
    ensures forceRescue && r.Success? ==>
      && r.value.connection == Session.RescueConnection
      && r.value.card.value.Rescue? && RescueDriver.HasCard(r.value.card.value.driver)
      && r.value.card.value.driver.active == RescueDriver.On
      && RescueDriver.Count(r.value.card.value.driver.issued, RescueDriver.IccPowerOn) == 1
      && RescueDriver.Count(r.value.card.value.driver.issued, RescueDriver.IccPowerOff) >= 1
      && Last(r.value.card.value.driver.issued) == RescueDriver.SendApdu(SelectFrame(true))
    ensures r.Success? && r.value.card.value.Rescue? ==> r.value.watcher == Session.RescueWatcher(RescueMonitor.New(true))
    ensures r.Success? && r.value.card.value.Smartcard? ==>
      (r.value.connection == Session.SmartcardConnection <==> r.value.watcher.CardWatcher?)
    ensures forceRescue && RescueDriver.Bind(usb).Failure? ==> r == Failure(NoDevice)
    ensures select.Fault? ==> r.Failure?
    ensures !forceRescue && SelectReader(readers, slot).Failure? ==> r == Failure(SelectReader(readers, slot).error)
    ensures var pick := if forceRescue then Success(NoReader) else SelectReader(readers, slot);
      pick.Success? ==>
        var a := Attach(pick.value, usb);
        && (a.Failure? ==> r == Failure(a.error))
        && (a.Success? && select.Fault? ==> r == Failure(SelectFault))
        && (a.Success? && select.Answer? ==>
              && (r.Success? <==> DecodeIdentity(select.reply).Success?)
              && (r.Failure? ==> r == Failure(DecodeIdentity(select.reply).error))
              && (r.Success? ==>
                    r.value == a.value.(card := Some(SelectedCard(a.value.card.value, select.reply)),
                                        identity := DecodeIdentity(select.reply).value)))
  {
    var pick := if forceRescue then Success(NoReader) else SelectReader(readers, slot);
    match pick
    case Failure(e) => Failure(e)
    case Success(p) =>
      match Attach(p, usb)
      case Failure(e) => Failure(e)
      case Success(s) =>
        match Session.Transmit(s, select)
        case Failure(_) => Failure(SelectFault)
        case Success(reply) =>
          match DecodeIdentity(reply)
          case Failure(e) => Failure(e)
          case Success(id) => Success(s.(card := Some(SelectedCard(s.card.value, reply)), identity := id))
  }

  function Last<T>(s: seq<T>): T
    requires s != []
  {
    s[|s| - 1]
  }

  /** The transport after the rescue-applet SELECT: a reader's card is
      unchanged, while the rescue driver powers the card on when it is not
      on (picokey/RescuePicoKey.py:131-135) and records the APDU. */
  function SelectedCard(card: Session.Card, reply: Reply): (c: Session.Card)
    ensures card.Smartcard? ==> c == card
    ensures card.Rescue? ==>
      && c.Rescue? && c.driver.dev == card.driver.dev && c.driver.endpoints == card.driver.endpoints
      && c.driver.active == RescueDriver.On
      && c.driver.issued == card.driver.issued
           + (if card.driver.active == RescueDriver.On then [] else [RescueDriver.IccPowerOn])
           + [RescueDriver.SendApdu(SelectFrame(true))]
  {
    match card
    case Smartcard => card
    case Rescue(d) => Session.Rescue(RescueDriver.Transmit(d, SelectFrame(true), reply.payload + [reply.sw1, reply.sw2]).driver)
  }

  /** Scanning the readers (negative slot) opens the first reader with a
      card as a watched smartcard session, and the identity the device
      reports in a 9000 answer is the session's identity. */
  lemma OpenFindsCard(rs: seq<ReaderOutcome>, k: nat, usb: Option<seq<RescueDriver.UsbDevice>>,
                      id: Session.Identity, rest: seq<Byte>)
    requires k < |rs| && rs[k] == CardPresent
    requires forall j :: 0 <= j < k ==> rs[j] == NoCard
    requires id.platform in Session.Platform && id.product in Session.Product
    ensures Open(-1, false, Some(rs), usb, Session.Answer(Reply(IdentityBytes(id) + rest, 0x90, 0x00)))
         == Success(Session.Session(Some(Session.Smartcard), Session.SmartcardConnection, Session.CardWatcher, [], None, id))
  {
    ScanPicksFirstCard(rs, k);
    IdentityRoundTrip(id, rest);
  }

  /** With no reader at all the constructor falls back to the rescue
      interface, whose card the SELECT powers on; when the SELECT is refused
      the baseline identity stands. */
  lemma OpenFallsBackToRescue(usb: Option<seq<RescueDriver.UsbDevice>>, payload: seq<Byte>, sw1: Byte, sw2: Byte)
    requires RescueDriver.Bind(usb).Success?
    requires !(sw1 == 0x90 && sw2 == 0x00)
    ensures var r := Open(0, false, None, usb, Session.Answer(Reply(payload, sw1, sw2)));
      var d := RescueDriver.Bind(usb).value;
      && r.Success?
      && r.value.card.Some? && r.value.card.value.Rescue?
      && r.value.card.value.driver == d.(active := RescueDriver.On,
                                         issued := d.issued + [RescueDriver.IccPowerOn, RescueDriver.SendApdu(SelectFrame(true))])
      && r.value.connection == Session.RescueConnection
      && r.value.identity == Baseline
  {
    assert SelectReader(None, 0) == Success(NoReader);
  }
}

=== FILE: enums.dfy ===
/** `NamedIntEnum` (picokey/core/enums.py): an integer enumeration whose
    string form is the member's name, with a forgiving lookup by name.

    A class is modelled as its members in definition order. Python forbids
    two members with one name; aliases (two names, one value) are not
    modelled. Lower-casing and whitespace stripping are modelled for the
    ASCII letters and for the whitespace characters Python's `str.strip`
    removes below U+0100. */
module NamedIntEnum {
  import opened Wrappers

  datatype Member = Member(name: string, value: int)

  type EnumClass = seq<Member>

  /** What `from_string` may be handed: a string, an int (the annotation
      admits one) or None. */
  datatype Arg = Text(s: string) | Number(n: int) | Absent

  datatype LookupError =
    | NoUnknownMember  // `cls.UNKNOWN` is an AttributeError: the class has no UNKNOWN
    | NotAString       // a non-zero int reaches `value.strip()`, which ints lack

  // ---------------------------------------------------------------------
  // String helpers: `str.strip()` and `str.lower()`
  // ---------------------------------------------------------------------

  predicate IsSpace(c: char) {
    || c == ' '
    || ('\t' <= c <= '\r')
    || ('\U{1C}' <= c <= '\U{1F}')
    || c == '\U{85}'
    || c == '\U{A0}'
  }

  /** No whitespace at either end. */
  predicate Trimmed(s: string) {
    s == [] || (!IsSpace(s[0]) && !IsSpace(s[|s| - 1]))
  }

  predicate AllSpace(s: string) {
    forall i :: 0 <= i < |s| ==> IsSpace(s[i])
  }

  function TrimStart(s: string): (r: string)
    ensures |r| <= |s| && r == s[|s| - |r|..]
    ensures r == [] || !IsSpace(r[0])
    ensures AllSpace(s[..|s| - |r|])
  {
    if s != [] && IsSpace(s[0]) then
      var r := TrimStart(s[1..]);
      assert s[..|s| - |r|] == [s[0]] + s[1..][..|s| - 1 - |r|];
      r
    else s
  }

  function TrimEnd(s: string): (r: string)
    ensures |r| <= |s| && r == s[..|r|]
    ensures r == [] || !IsSpace(r[|r| - 1])
    ensures AllSpace(s[|r|..])
  {
    if s != [] && IsSpace(s[|s| - 1]) then
      var r := TrimEnd(s[..|s| - 1]);
      assert s[..|s| - 1][..|r|] == s[..|r|];
      assert s[|r|..] == s[..|s| - 1][|r|..] + [s[|s| - 1]];
      r
    else s
  }

  /** `s.strip()`: the longest middle part with no whitespace at its ends. */
  function Strip(s: string): (r: string)
    ensures Trimmed(r)
  {
    TrimEnd(TrimStart(s))
  }

  function LowerChar(c: char): char {
    if 'A' <= c <= 'Z' then (c as int + 32) as char else c
  }

  function UpperChar(c: char): char {
    if 'a' <= c <= 'z' then (c as int - 32) as char else c
  }

  /** `s.lower()` */
  function Lower(s: string): (r: string)
    ensures |r| == |s|
  {
    seq(|s|, i requires 0 <= i < |s| => LowerChar(s[i]))
  }

  /** `s.upper()` */
  function Upper(s: string): (r: string)
    ensures |r| == |s|
  {
    seq(|s|, i requires 0 <= i < |s| => UpperChar(s[i]))
  }

  // ---------------------------------------------------------------------
  // Lookup
  // ---------------------------------------------------------------------

  /** `cls.UNKNOWN`: the member declared under that name, if any. */
  function UnknownOf(cls: EnumClass): (r: Result<Member, LookupError>)
    ensures r.Success? ==> r.value in cls && r.value.name == "UNKNOWN"
    ensures r.Failure? ==> r.error == NoUnknownMember && forall m :: m in cls ==> m.name != "UNKNOWN"
  {
    if cls == [] then Failure(NoUnknownMember)
    else if cls[0].name == "UNKNOWN" then Success(cls[0])
    else UnknownOf(cls[1..])
  }

  /** The loop of `from_string`: the position of the first member, in
      definition order, whose lower-cased name is `key`. The loop's other
      test, `member.value == value`, compares an int with a str and is
      therefore never true, so it contributes nothing. */
  function FindByName(cls: EnumClass, key: string): (r: Option<nat>)
    ensures r.Some? ==> r.value < |cls| && Lower(cls[r.value].name) == key
    ensures r.Some? ==> forall j :: 0 <= j < r.value ==> Lower(cls[j].name) != key
    ensures r.None? ==> forall j :: 0 <= j < |cls| ==> Lower(cls[j].name) != key
  {
    if cls == [] then None
    else if Lower(cls[0].name) == key then Some(0)
    else match FindByName(cls[1..], key)
      case None => None
      case Some(k) => Some(k + 1)
  }

  /** Python's truthiness of the argument: None, "" and 0 are false. */
  predicate Falsy(arg: Arg) {
    arg.Absent? || arg == Text("") || arg == Number(0)
  }

  /** The key `from_string` looks a text up under. */
  function Key(s: string): string {
    Lower(Strip(s))
  }

  /** Some member's lower-cased name is `key`. */
  predicate Named(cls: EnumClass, key: string) {
    exists m :: m in cls && Lower(m.name) == key
  }

  /** `r` is the first member, in definition order, whose lower-cased name
      is `key`. */
  predicate FirstNamed(cls: EnumClass, key: string, r: Result<Member, LookupError>) {
    exists k :: 0 <= k < |cls| && r == Success(cls[k]) && Lower(cls[k].name) == key
      && forall j :: 0 <= j < k ==> Lower(cls[j].name) != Lower(cls[k].name)
  }

  /** `NamedIntEnum.from_string(value)`. */
  function FromString(cls: EnumClass, arg: Arg): (r: Result<Member, LookupError>)
    ensures Falsy(arg) ==> r == UnknownOf(cls)
    ensures arg.Number? && arg.n != 0 ==> r == Failure(NotAString)
    ensures arg.Text? && arg.s != "" && !Named(cls, Key(arg.s)) ==> r == UnknownOf(cls)
    ensures arg.Text? && arg.s != "" && Named(cls, Key(arg.s)) ==> FirstNamed(cls, Key(arg.s), r)
  {
    match arg
    case Absent => UnknownOf(cls)
    case Number(n) => if n == 0 then UnknownOf(cls) else Failure(NotAString)
    case Text(s) =>
      if s == "" then UnknownOf(cls) else LookupName(cls, Key(s))
  }

  /** The text branch of `from_string` once the key is formed: the first
      member whose lower-cased name is the key, else the default. */
  function LookupName(cls: EnumClass, key: string): (r: Result<Member, LookupError>)
    ensures !Named(cls, key) ==> r == UnknownOf(cls)
    ensures Named(cls, key) ==> FirstNamed(cls, key, r)
  {
    match FindByName(cls, key)
    case Some(k) =>
      assert cls[k] in cls && Lower(cls[k].name) == key;
      assert forall j :: 0 <= j < k ==> Lower(cls[j].name) != Lower(cls[k].name);
      Success(cls[k])
    case None =>
      assert forall m :: m in cls ==> Lower(m.name) != key;
      UnknownOf(cls)
  }

  /** A non-empty text whose key names no member yields the default. */
  lemma UnmatchedIsUnknown(cls: EnumClass, s: string)
    requires s != "" && FindByName(cls, Key(s)).None?
    ensures FromString(cls, Text(s)) == UnknownOf(cls)
  {
  }

  /** Member lookup by value, as `Platform(resp[0])` does: the first member
      with that value, or `None` where Python raises ValueError. */
  function ByValue(cls: EnumClass, v: int): (r: Option<Member>)
    ensures r.Some? ==> r.value in cls && r.value.value == v
    ensures r.None? <==> forall m :: m in cls ==> m.value != v
  {
    if cls == [] then None
    else if cls[0].value == v then Some(cls[0])
    else ByValue(cls[1..], v)
  }

  /** Python enum classes never repeat a name; the lookup additionally needs
      names that stay distinct once lower-cased and carry no padding. */
  predicate LookupReady(cls: EnumClass) {
    && (forall i, j :: 0 <= i < j < |cls| ==> Lower(cls[i].name) != Lower(cls[j].name))
    && (forall i :: 0 <= i < |cls| ==> cls[i].name != "" && Trimmed(cls[i].name))
  }

  lemma LowerOfUpper(s: string)
    ensures Lower(Upper(s)) == Lower(s)
  {
  }

  lemma UpperKeepsTrimmed(s: string)
    requires Trimmed(s)
    ensures Trimmed(Upper(s))
  {
  }

  lemma {:induction false} TrimStartOfPadded(pre: string, x: string)
    requires AllSpace(pre)
    requires x == [] || !IsSpace(x[0])
    ensures TrimStart(pre + x) == x
  {
    if pre != [] {
      assert (pre + x)[1..] == pre[1..] + x;
      TrimStartOfPadded(pre[1..], x);
    }
  }

  lemma {:induction false} TrimEndOfPadded(x: string, post: string)
    requires AllSpace(post)
    requires x == [] || !IsSpace(x[|x| - 1])
    ensures TrimEnd(x + post) == x
  {
    if post != [] {
      assert (x + post)[..|x + post| - 1] == x + post[..|post| - 1];
      TrimEndOfPadded(x, post[..|post| - 1]);
    }
  }

  /** Stripping removes exactly the padding around a trimmed word. */
  lemma StripPadded(pre: string, x: string, post: string)
    requires AllSpace(pre) && AllSpace(post)
    requires x != [] && Trimmed(x)
    ensures Strip(pre + x + post) == x
  {
    assert pre + x + post == pre + (x + post);
    TrimStartOfPadded(pre, x + post);
    TrimEndOfPadded(x, post);
  }

  lemma StripOfTrimmed(x: string)
    requires x != [] && Trimmed(x)
    ensures Strip(x) == x
  {
    StripPadded([], x, []);
    assert [] + x + [] == x;
  }

  /** Lookup ignores case and surrounding whitespace: any member's name,
      upper-cased and padded with whitespace on both sides, finds that member. */
  lemma LookupIgnoresCaseAndPadding(cls: EnumClass, i: nat, pre: string, post: string)
    requires LookupReady(cls)
    requires i < |cls|
    requires AllSpace(pre) && AllSpace(post)
    ensures FromString(cls, Text(pre + Upper(cls[i].name) + post)) == Success(cls[i])
  {
    var name := cls[i].name;
    UpperKeepsTrimmed(name);
    StripPadded(pre, Upper(name), post);
    LowerOfUpper(name);
  }

  /** `str(member)` is the member's name, and `from_string` of that name
      gives the member back. */
  function Str(m: Member): (r: string)
    ensures forall cls: EnumClass, i :: LookupReady(cls) && 0 <= i < |cls| && cls[i] == m ==>
      FromString(cls, Text(r)) == Success(m)
  {
    forall cls: EnumClass, i | LookupReady(cls) && 0 <= i < |cls| && cls[i] == m
      ensures FromString(cls, Text(m.name)) == Success(m)
    {
      NameFindsMember(cls, i);
    }
    m.name
  }

  /** In a lookup-ready class a member's own name finds that member. */
  lemma NameFindsMember(cls: EnumClass, i: nat)
    requires LookupReady(cls) && i < |cls|
    ensures FromString(cls, Text(cls[i].name)) == Success(cls[i])
  {
    var name := cls[i].name;
    StripOfTrimmed(name);
    var found := FindByName(cls, Lower(name));
    if found.None? {
      assert false;
    } else if found.value < i {
      assert false;
    } else if found.value > i {
      assert false;
    }
  }

  // ---------------------------------------------------------------------
  // `__format__`
  // ---------------------------------------------------------------------

  /** `any(c in fmt for c in "xXod")`: the spec asks for a number. */
  predicate SelectsNumber(spec: string) {
    exists i :: 0 <= i < |spec| && spec[i] in "xXod"
  }

  /** The text a format produces; `OutsideModel` stands for the numeric
      format specs beyond `[0][width]type` (fill, align, sign, `#`, grouping),
      which Python's `format` accepts but this model does not interpret. */
  datatype Rendering = Rendered(text: string) | OutsideModel

  /** A numeric spec of the form `[0][width]type`, type one of d, o, x, X. */
  datatype IntSpec = IntSpec(zeroPad: bool, width: nat, base: nat, upper: bool)

  predicate IsDigit(c: char) {
    '0' <= c <= '9'
  }

  function DigitChar(d: nat, upper: bool): char
    requires d < 16
  {
    if d < 10 then ('0' as int + d) as char
    else if upper then ('A' as int + d - 10) as char
    else ('a' as int + d - 10) as char
  }

  function DigitValue(c: char): nat {
    if '0' <= c <= '9' then c as int - '0' as int
    else if 'a' <= c <= 'f' then c as int - 'a' as int + 10
    else if 'A' <= c <= 'F' then c as int - 'A' as int + 10
    else 0
  }

  /** Reads a digit string, most significant digit first. */
  function ParseDigits(s: string, base: nat): nat {
    if s == [] then 0 else ParseDigits(s[..|s| - 1], base) * base + DigitValue(s[|s| - 1])
  }

  /** The digits of `n` in `base`, most significant first; 0 is "0". */
  function Digits(n: nat, base: nat, upper: bool): (r: string)
    requires 2 <= base <= 16
    ensures r != [] && r[0] != ' ' && r[0] != '-'
    decreases n
  {
    if n < base then [DigitChar(n, upper)]
    else
      DivideByBase(n, base);
      var hi := Digits(n / base, base, upper);
      assert (hi + [DigitChar(n % base, upper)])[0] == hi[0];
      hi + [DigitChar(n % base, upper)]
  }

  /** The base a type letter selects: d decimal, o octal, x and X hex. */
  function BaseOf(t: char): nat {
    if t == 'd' then 10 else if t == 'o' then 8 else 16
  }

  /** Reads `[0][width]type`: the last character is the type letter, all
      before it are decimal digits giving the width, and a leading `0` asks
      for zero padding. Anything else is not such a spec. */
  function ParseIntSpec(spec: string): (r: Option<IntSpec>)
    ensures r.Some? ==> r.value.base in {8, 10, 16} && SelectsNumber(spec)
    ensures r.Some? <==>
      && spec != [] && spec[|spec| - 1] in "xXod"
      && forall i :: 0 <= i < |spec| - 1 ==> IsDigit(spec[i])
    ensures r.Some? ==>
      var t := spec[|spec| - 1];
      && r.value.base == BaseOf(t)
      && r.value.upper == (t == 'X')
      && r.value.zeroPad == (|spec| > 1 && spec[0] == '0')
      && r.value.width == ParseDigits(spec[..|spec| - 1], 10)
  {
    if spec == [] then None
    else
      var t := spec[|spec| - 1];
      var body := spec[..|spec| - 1];
      if t !in "xXod" || exists i :: 0 <= i < |body| && !IsDigit(body[i]) then None
      else
        Some(IntSpec(body != [] && body[0] == '0', ParseDigits(body, 10), BaseOf(t), t == 'X'))
  }

  /** A width written in decimal, with or without a zero flag before it, and
      followed by a type letter, reads back as that width, base and case;
      the flag is seen whenever the text starts with `0`. */
  lemma ParseIntSpecOfText(zero: bool, width: nat, t: char)
    requires t in "xXod"
    ensures var w := Digits(width, 10, false);
      var r := ParseIntSpec((if zero then "0" else "") + w + [t]);
      && r.Some?
      && r.value == IntSpec(zero || w[0] == '0', width, BaseOf(t), t == 'X')
  {
    var w := Digits(width, 10, false);
    var flag := if zero then "0" else "";
    var spec := flag + w + [t];
    assert spec[..|spec| - 1] == flag + w;
    DecimalDigits(width);
    ParseDigitsOfDigits(width, 10, false);
    if zero {
      ParseDigitsLeadingZero(w);
    } else {
      assert flag + w == w;
    }
  }

  /** Decimal digits are the characters 0 to 9. */
  lemma {:induction false} DecimalDigits(n: nat)
    ensures forall i :: 0 <= i < |Digits(n, 10, false)| ==> IsDigit(Digits(n, 10, false)[i])
    decreases n
  {
    if n >= 10 {
      DivideByBase(n, 10);
      DecimalDigits(n / 10);
      assert Digits(n, 10, false) == Digits(n / 10, 10, false) + [DigitChar(n % 10, false)];
    }
  }

  /** A leading zero digit does not change a decimal number. */
  lemma {:induction false} ParseDigitsLeadingZero(s: string)
    ensures ParseDigits("0" + s, 10) == ParseDigits(s, 10)
    decreases |s|
  {
    if s == [] {
      assert ("0" + s)[..0] == [];
    } else {
      var z := "0" + s;
      assert z[..|z| - 1] == "0" + s[..|s| - 1];
      ParseDigitsLeadingZero(s[..|s| - 1]);
    }
  }

  /** Python's rendering of an int under a `[0][width]type` spec: a minus
      sign for negatives, right-aligned in `width`, padded with spaces before
      the sign or, with the `0` flag, with zeros after it. */
  function Render(v: int, f: IntSpec): string
    requires f.base in {8, 10, 16}
  {
    var body := Digits(if v < 0 then -v else v, f.base, f.upper);
    var sign := if v < 0 then "-" else "";
    var fill := if f.width > |sign| + |body| then f.width - |sign| - |body| else 0;
    Pad(v < 0, fill, body, f.zeroPad)
  }

  /** The digits with their sign and `fill` padding characters: zeros go
      after the sign, spaces before it. */
  function Pad(neg: bool, fill: nat, body: string, zeroPad: bool): string {
    var sign := if neg then "-" else "";
    if zeroPad then sign + Repeat('0', fill) + body else Repeat(' ', fill) + sign + body
  }

  /** Reads back a rendered int: leading spaces, an optional minus sign,
      then digits. */
  function ReadInt(t: string, base: nat): int {
    var u := DropSpaces(t);
    if u != [] && u[0] == '-' then 0 - ParseDigits(u[1..], base) else ParseDigits(u, base)
  }

  function DropSpaces(t: string): string {
    if t != [] && t[0] == ' ' then DropSpaces(t[1..]) else t
  }

  /** `format(member, spec)`: the value rendered as a number when the spec
      holds any of x, X, o, d; the bare name otherwise (width and alignment
      are then ignored). The rendered number reads back as the member's value
      and fills at least the requested width. */
  function Format(m: Member, spec: string): (r: Rendering)
    ensures !SelectsNumber(spec) ==> r == Rendered(m.name)
    ensures ParseIntSpec(spec).Some? ==>
      && r.Rendered?
      && ReadInt(r.text, ParseIntSpec(spec).value.base) == m.value
      && |r.text| >= ParseIntSpec(spec).value.width
    ensures ParseIntSpec(spec).Some? ==>
      var t := spec[|spec| - 1];
      && ReadInt(r.text, BaseOf(t)) == m.value
      && LettersIn(r.text, t == 'X')
    ensures ParseIntSpec(spec).Some? ==>
      var f := ParseIntSpec(spec).value;
      var digits := Digits(if m.value < 0 then -m.value else m.value, f.base, f.upper);
      var sign := if m.value < 0 then "-" else "";
      var fill := if f.width > |sign| + |digits| then f.width - |sign| - |digits| else 0;
      && |r.text| == (if f.width > |sign| + |digits| then f.width else |sign| + |digits|)
      && (f.zeroPad ==> r.text == sign + Repeat('0', fill) + digits)
      && (!f.zeroPad ==> r.text == Repeat(' ', fill) + sign + digits)
  {
    if !SelectsNumber(spec) then Rendered(m.name)
    else match ParseIntSpec(spec)
      case None => OutsideModel
      case Some(f) =>
        RenderLayout(m.value, f);
        RenderBySpec(m.value, spec);
        Rendered(Render(m.value, f))
  }

  /** What `Format` promises of a number, stated of `Render` under a
      parsed spec. */
  lemma RenderBySpec(v: int, spec: string)
    requires ParseIntSpec(spec).Some?
    ensures var f := ParseIntSpec(spec).value;
      var text := Render(v, f);
      var t := spec[|spec| - 1];
      && ReadInt(text, f.base) == v
      && |text| >= f.width
      && ReadInt(text, BaseOf(t)) == v
      && LettersIn(text, t == 'X')
  {
    var f := ParseIntSpec(spec).value;
    RenderReadsBack(v, f);
    RenderCase(v, f);
  }

  /** A rendered int is the sign and the digits of the magnitude, padded to
      exactly the larger of the width and their length: by zeros between
      sign and digits with the `0` flag, by spaces in front otherwise. */
  lemma RenderLayout(v: int, f: IntSpec)
    requires f.base in {8, 10, 16}
    ensures var digits := Digits(if v < 0 then -v else v, f.base, f.upper);
      var sign := if v < 0 then "-" else "";
      var fill := if f.width > |sign| + |digits| then f.width - |sign| - |digits| else 0;
      var text := Render(v, f);
      && |text| == (if f.width > |sign| + |digits| then f.width else |sign| + |digits|)
      && (f.zeroPad ==> text == sign + Repeat('0', fill) + digits)
      && (!f.zeroPad ==> text == Repeat(' ', fill) + sign + digits)
  {
  }

  /** Every letter of `s` is upper case when `upper` holds, lower case
      otherwise. */
  predicate LettersIn(s: string, upper: bool) {
    forall i :: 0 <= i < |s| ==> if upper then !('a' <= s[i] <= 'z') else !('A' <= s[i] <= 'Z')
  }

  lemma LettersInConcat(a: string, b: string, upper: bool)
    requires LettersIn(a, upper) && LettersIn(b, upper)
    ensures LettersIn(a + b, upper)
  {
    forall i | 0 <= i < |a + b|
      ensures if upper then !('a' <= (a + b)[i] <= 'z') else !('A' <= (a + b)[i] <= 'Z')
    {
      if i < |a| {
        assert (a + b)[i] == a[i];
      } else {
        assert (a + b)[i] == b[i - |a|];
      }
    }
  }

  /** Digits above 9 are written in the requested case. */
  lemma {:induction false} DigitsCase(n: nat, base: nat, upper: bool)
    requires 2 <= base <= 16
    ensures LettersIn(Digits(n, base, upper), upper)
    decreases n
  {
    if n >= base {
      DivideByBase(n, base);
      DigitsCase(n / base, base, upper);
      var last := [DigitChar(n % base, upper)];
      assert Digits(n, base, upper) == Digits(n / base, base, upper) + last;
      LettersInConcat(Digits(n / base, base, upper), last, upper);
    }
  }

  /** Padding and sign add no letters, so a rendered int is in the spec's
      case. */
  lemma RenderCase(v: int, f: IntSpec)
    requires f.base in {8, 10, 16}
    ensures LettersIn(Render(v, f), f.upper)
  {
    var body := Digits(if v < 0 then -v else v, f.base, f.upper);
    var sign := if v < 0 then "-" else "";
    var fill := if f.width > |sign| + |body| then f.width - |sign| - |body| else 0;
    DigitsCase(if v < 0 then -v else v, f.base, f.upper);
    PadCase(v < 0, fill, body, f.zeroPad, f.upper);
  }

  /** Padding and sign add no letters. */
  lemma PadCase(neg: bool, fill: nat, body: string, zeroPad: bool, upper: bool)
    requires LettersIn(body, upper)
    ensures LettersIn(Pad(neg, fill, body, zeroPad), upper)
  {
    var sign := if neg then "-" else "";
    assert LettersIn(sign, upper);
    assert LettersIn(Repeat('0', fill), upper);
    assert LettersIn(Repeat(' ', fill), upper);
    if zeroPad {
      LettersInConcat(sign, Repeat('0', fill), upper);
      LettersInConcat(sign + Repeat('0', fill), body, upper);
    } else {
      LettersInConcat(Repeat(' ', fill), sign, upper);
      LettersInConcat(Repeat(' ', fill) + sign, body, upper);
    }
  }

  lemma {:induction false} ParseDigitsOfDigits(n: nat, base: nat, upper: bool)
    requires 2 <= base <= 16
    ensures ParseDigits(Digits(n, base, upper), base) == n
    decreases n
  {
    if n < base {
      DigitValueOfChar(n, upper);
      assert Digits(n, base, upper)[..0] == [];
    } else {
      var q, r := n / base, n % base;
      DivideByBase(n, base);
      var hi := Digits(q, base, upper);
      var d := hi + [DigitChar(r, upper)];
      assert Digits(n, base, upper) == d;
      assert d[..|d| - 1] == hi;
      ParseDigitsOfDigits(q, base, upper);
      DigitValueOfChar(r, upper);
    }
  }

  lemma DivideByBase(n: nat, base: nat)
    requires 2 <= base <= n
    ensures n / base < n && n == (n / base) * base + n % base
  {
  }

  lemma DigitValueOfChar(d: nat, upper: bool)
    requires d < 16
    ensures DigitValue(DigitChar(d, upper)) == d
  {
  }

  lemma {:induction false} ParseDigitsSkipsZeros(k: nat, s: string, base: nat)
    ensures ParseDigits(Repeat('0', k) + s, base) == ParseDigits(s, base)
    decreases |s| + k
  {
    var z := Repeat('0', k);
    if s == [] {
      assert z + s == z;
      if k > 0 {
        assert z[..k - 1] == Repeat('0', k - 1);
        ParseDigitsSkipsZeros(k - 1, [], base);
        assert Repeat('0', k - 1) + [] == Repeat('0', k - 1);
      }
    } else {
      assert (z + s)[..|z + s| - 1] == z + s[..|s| - 1];
      ParseDigitsSkipsZeros(k, s[..|s| - 1], base);
    }
  }

  lemma {:induction false} DropSpacesOfPadded(k: nat, s: string)
    requires s != [] && s[0] != ' '
    ensures DropSpaces(Repeat(' ', k) + s) == s
  {
    if k > 0 {
      assert (Repeat(' ', k) + s)[1..] == Repeat(' ', k - 1) + s;
      DropSpacesOfPadded(k - 1, s);
    }
  }

  lemma ReadIntSkipsPadding(k: nat, t: string, base: nat)
    requires t != [] && t[0] != ' '
    ensures ReadInt(Repeat(' ', k) + t, base) == ReadInt(t, base)
  {
    DropSpacesOfPadded(k, t);
    DropSpacesOfPadded(0, t);
    assert Repeat(' ', 0) + t == t;
  }

  lemma ReadSignedDigits(neg: bool, k: nat, body: string, base: nat)
    requires body != [] && body[0] != ' ' && body[0] != '-'
    ensures var t := (if neg then "-" else "") + (Repeat('0', k) + body);
      ReadInt(t, base) == if neg then 0 - ParseDigits(body, base) else ParseDigits(body, base)
  {
    var u := Repeat('0', k) + body;
    var t := (if neg then "-" else "") + u;
    assert u[0] != ' ' && u[0] != '-' by {
      if k > 0 { assert u[0] == '0'; } else { assert u == body; }
    }
    assert t[0] != ' ';
    DropSpacesOfPadded(0, t);
    assert Repeat(' ', 0) + t == t;
    ParseDigitsSkipsZeros(k, body, base);
    if neg {
      assert t[1..] == u;
    } else {
      assert t == u;
    }
  }

  lemma RenderReadsBack(v: int, f: IntSpec)
    requires f.base in {8, 10, 16}
    ensures ReadInt(Render(v, f), f.base) == v
    ensures |Render(v, f)| >= f.width
  {
    var mag := if v < 0 then -v else v;
    var body := Digits(mag, f.base, f.upper);
    var sign := if v < 0 then "-" else "";
    var fill := if f.width > |sign| + |body| then f.width - |sign| - |body| else 0;
    ParseDigitsOfDigits(mag, f.base, f.upper);
    PaddedReadsBack(v < 0, fill, body, f.base, f.zeroPad);
  }

  /** Either padding of a signed digit string reads back as its value. */
  lemma PaddedReadsBack(neg: bool, fill: nat, body: string, base: nat, zeroPad: bool)
    requires body != [] && body[0] != ' ' && body[0] != '-'
    ensures ReadInt(Pad(neg, fill, body, zeroPad), base) == if neg then 0 - ParseDigits(body, base) else ParseDigits(body, base)
    ensures |Pad(neg, fill, body, zeroPad)| == (if neg then 1 else 0) + fill + |body|
  {
    var sign := if neg then "-" else "";
    if zeroPad {
      assert Pad(neg, fill, body, zeroPad) == sign + (Repeat('0', fill) + body);
      ReadSignedDigits(neg, fill, body, base);
    } else {
      assert Pad(neg, fill, body, zeroPad) == Repeat(' ', fill) + (sign + body);
      SpacePaddedReadsBack(neg, fill, body, base);
    }
  }

  lemma SpacePaddedReadsBack(neg: bool, fill: nat, body: string, base: nat)
    requires body != [] && body[0] != ' ' && body[0] != '-'
    ensures var t := Repeat(' ', fill) + ((if neg then "-" else "") + body);
      ReadInt(t, base) == if neg then 0 - ParseDigits(body, base) else ParseDigits(body, base)
  {
    var sign := if neg then "-" else "";
    assert (sign + body)[0] != ' ';
    ReadIntSkipsPadding(fill, sign + body, base);
    ReadSignedDigits(neg, 0, body, base);
    assert Repeat('0', 0) + body == body;
  }
}

=== FILE: format_examples.dfy ===
/** Worked instances of `format` on enum members (picokey/core/enums.py:8-11):
    the padding Python's integer format applies with and without the `0`
    flag. */
module FormatExamples {
  import opened Wrappers
  import opened NamedIntEnum

  /** With the `0` flag the padding is zeros after the sign. */
  lemma FormatZeroPads()
    ensures Format(Member("HSM", 1), "04x") == Rendered("0001")
  {
    assert "04"[..1] == "0";
    assert ParseDigits("04", 10) == 4;
    assert "04x"[..2] == "04" && "04x"[2] == 'x';
    assert forall i :: 0 <= i < 2 ==> IsDigit("04x"[i]);
    assert ParseIntSpec("04x") == Some(IntSpec(true, 4, 16, false));
    assert Digits(1, 16, false) == "1";
    assert Repeat('0', 3) == "000";
    assert Render(1, IntSpec(true, 4, 16, false)) == "" + "000" + "1";
  }

  /** Without it the padding is spaces, before the sign. */
  lemma FormatSpacePads()
    ensures Format(Member("M", -26), "5X") == Rendered("  -1A")
  {
    assert "5"[..0] == [];
    assert ParseDigits("5", 10) == 5;
    assert "5X"[..1] == "5" && "5X"[1] == 'X';
    assert forall i :: 0 <= i < 1 ==> IsDigit("5X"[i]);
    assert ParseIntSpec("5X") == Some(IntSpec(false, 5, 16, true));
    DivideByBase(26, 16);
    assert Digits(26, 16, true) == Digits(1, 16, true) + [DigitChar(10, true)];
    assert Digits(26, 16, true) == "1A";
    assert Repeat(' ', 2) == "  ";
    assert Render(-26, IntSpec(false, 5, 16, true)) == "  " + "-" + "1A";
  }
}

=== FILE: rescue_driver.dfy ===
/** `RescuePicoKey` (picokey/RescuePicoKey.py): the USB "rescue" transport.
    It locates the token among the attached USB devices, binds its bulk and
    interrupt endpoints, and drives it with ICCD requests while tracking
    whether the card is powered.

    USB descriptors are plain records here; the ICCD requests are recorded in
    the order they are issued and their wire encoding is not part of this
    model. */
module RescueDriver {
  import opened Wrappers
  import opened Bytes
  import opened Apdu

  /** `self.__active`: None before any power request, then True or False. */
  datatype Power = Unset | On | Off

  /** The ICCD requests the driver issues. */
  datatype IccdRequest = IccPowerOn | IccPowerOff | SendApdu(apdu: seq<Byte>)

  datatype Endpoint = Endpoint(address: Byte, attributes: Byte)
  datatype Interface = Interface(interfaceClass: Byte, endpoints: seq<Endpoint>)
  datatype Configuration = Configuration(interfaces: seq<Interface>)
  datatype UsbDevice = UsbDevice(
    vendorId: nat,
    productId: nat,
    deviceClass: Byte,
    manufacturer: string,
    configurations: seq<Configuration>)

  /** The bound endpoint addresses: bulk IN, bulk OUT, optional interrupt IN. */
  datatype Endpoints = Endpoints(bulkIn: Byte, bulkOut: Byte, interrupt: Option<Byte>)

  /** A constructed driver: the device handle (None once closed), its
      endpoints, the power flag and every ICCD request issued so far. */
  datatype Driver = Driver(dev: Option<UsbDevice>, endpoints: Endpoints, active: Power, issued: seq<IccdRequest>)

  datatype BindError =
    | NotFound         // no device bound: 'Not found any Pico Key device'
    | NoConfiguration  // `set_configuration()` on a device without configurations
    | NoBulkIn         // `epin.bEndpointAddress` with no bulk IN endpoint
    | NoBulkOut        // `epout[0]` with no OUT endpoint

  const SmartCardClass: Byte := 0x0B
  const VendorClass: Byte := 0xFF
  const Manufacturer := "Pol Henarejos"

  // ---------------------------------------------------------------------
  // Power state machine
  // ---------------------------------------------------------------------

  function Count(log: seq<IccdRequest>, q: IccdRequest): nat {
    if log == [] then 0 else Count(log[..|log| - 1], q) + (if log[|log| - 1] == q then 1 else 0)
  }

  lemma {:induction false} CountAppend(a: seq<IccdRequest>, b: seq<IccdRequest>, q: IccdRequest)
    ensures Count(a + b, q) == Count(a, q) + Count(b, q)
    decreases |b|
  {
    if b == [] {
      assert a + b == a;
    } else {
      assert (a + b)[..|a + b| - 1] == a + b[..|b| - 1];
      CountAppend(a, b[..|b| - 1], q);
    }
  }

  /** `powerOn` (picokey/RescuePicoKey.py:121-124): powers the card unless it
      is already on; the flag is then on. */
  function PowerOn(d: Driver): (r: Driver)
    ensures r.active == On && r.dev == d.dev && r.endpoints == d.endpoints
    ensures Count(r.issued, IccPowerOn) == Count(d.issued, IccPowerOn) + (if d.active == On then 0 else 1)
    ensures Count(r.issued, IccPowerOff) == Count(d.issued, IccPowerOff)
  {
    if d.active != On then d.(active := On, issued := d.issued + [IccPowerOn]) else d
  }

  /** `powerOff` (picokey/RescuePicoKey.py:126-129): powers the card down
      when it is on or its state is unknown; the flag is then off. */
  function PowerOff(d: Driver): (r: Driver)
    ensures r.active == Off && r.dev == d.dev && r.endpoints == d.endpoints
    ensures Count(r.issued, IccPowerOff) == Count(d.issued, IccPowerOff) + (if d.active == Off then 0 else 1)
    ensures Count(r.issued, IccPowerOn) == Count(d.issued, IccPowerOn)
  {
    match d.active
    case Off => d
    case _ => d.(issued := d.issued + [IccPowerOff], active := Off)
  }

  /** Powering on twice issues one power-on request. */
  lemma PowerOnOnce(d: Driver)
    ensures PowerOn(PowerOn(d)) == PowerOn(d)
    ensures |PowerOn(PowerOn(d)).issued| <= |d.issued| + 1
  {
  }

  /** Powering off twice issues one power-off request. */
  lemma PowerOffOnce(d: Driver)
    ensures PowerOff(PowerOff(d)) == PowerOff(d)
    ensures |PowerOff(PowerOff(d)).issued| <= |d.issued| + 1
  {
  }

  datatype Transmitted = Transmitted(driver: Driver, reply: Option<Reply>)

  /** `transmit` (picokey/RescuePicoKey.py:131-135): powers the card on if it
      is not on, sends the APDU and splits the last two bytes of the answer
      `rapdu` off as SW1 and SW2. An answer shorter than two bytes makes
      `rapdu[-2]` raise IndexError (`None` here). */
  function Transmit(d: Driver, apdu: seq<Byte>, rapdu: seq<Byte>): (t: Transmitted)
    ensures t.driver.active == On && t.driver.dev == d.dev && t.driver.endpoints == d.endpoints
    ensures |t.driver.issued| > 0 && t.driver.issued[|t.driver.issued| - 1] == SendApdu(apdu)
    ensures Count(t.driver.issued, IccPowerOn) == Count(d.issued, IccPowerOn) + (if d.active == On then 0 else 1)
    ensures Count(t.driver.issued, IccPowerOff) == Count(d.issued, IccPowerOff)
    ensures t.reply.Some? <==> |rapdu| >= 2
    ensures t.reply.Some? ==> t.reply.value.payload + [t.reply.value.sw1, t.reply.value.sw2] == rapdu
  {
    var powered := if d.active != On then PowerOn(d) else d;
    var sent := powered.(issued := powered.issued + [SendApdu(apdu)]);
    CountAppend(powered.issued, [SendApdu(apdu)], IccPowerOn);
    CountAppend(powered.issued, [SendApdu(apdu)], IccPowerOff);
    assert Count([SendApdu(apdu)], IccPowerOn) == 0 by { assert [SendApdu(apdu)][..0] == []; }
    assert Count([SendApdu(apdu)], IccPowerOff) == 0 by { assert [SendApdu(apdu)][..0] == []; }
    if |rapdu| < 2 then Transmitted(sent, None)
    else
      var n := |rapdu|;
      assert rapdu[..n - 2] + [rapdu[n - 2], rapdu[n - 1]] == rapdu;
      Transmitted(sent, Some(Reply(rapdu[..n - 2], rapdu[n - 2], rapdu[n - 1])))
  }

  /** Transmits a run of APDUs with no power-off in between, pairing each
      with its scripted answer. */
  function TransmitAll(d: Driver, apdus: seq<seq<Byte>>, rapdus: seq<seq<Byte>>): Driver
    requires |apdus| == |rapdus|
    decreases |apdus|
  {
    if apdus == [] then d
    else TransmitAll(Transmit(d, apdus[0], rapdus[0]).driver, apdus[1..], rapdus[1..])
  }

  /** However many transmits follow one another, at most one power-on is
      issued, none when the card is already on, and no power-off. */
  lemma {:induction false} TransmitsPowerOnAtMostOnce(d: Driver, apdus: seq<seq<Byte>>, rapdus: seq<seq<Byte>>)
    requires |apdus| == |rapdus|
    ensures var r := TransmitAll(d, apdus, rapdus);
      && Count(r.issued, IccPowerOn) - Count(d.issued, IccPowerOn) == (if d.active == On || apdus == [] then 0 else 1)
      && Count(r.issued, IccPowerOff) == Count(d.issued, IccPowerOff)
      && (apdus != [] ==> r.active == On)
    decreases |apdus|
  {
    if apdus != [] {
      var t := Transmit(d, apdus[0], rapdus[0]).driver;
      TransmitsPowerOnAtMostOnce(t, apdus[1..], rapdus[1..]);
    }
  }

  // ---------------------------------------------------------------------
  // Closing
  // ---------------------------------------------------------------------

  /** `has_card` */
  predicate HasCard(d: Driver) {
    d.dev.Some?
  }

  datatype Closed = Closed(driver: Driver, disposed: bool)

  /** `close` (picokey/RescuePicoKey.py:86-89): releases the USB handle if
      one is held. Afterwards `has_card` is false. */
  function Close(d: Driver): (c: Closed)
    ensures !HasCard(c.driver)
    ensures c.disposed <==> HasCard(d)
    ensures c.driver.active == d.active && c.driver.issued == d.issued
  {
    if d.dev.Some? then Closed(d.(dev := None), true) else Closed(d, false)
  }

  /** A second close releases nothing and changes nothing. */
  lemma CloseIdempotent(d: Driver)
    ensures Close(Close(d).driver) == Closed(Close(d).driver, false)
  {
  }

  // ---------------------------------------------------------------------
  // Locating the device
  // ---------------------------------------------------------------------

  /** `usb.util.find_descriptor(cfg, bInterfaceClass=cls)`: the position of
      the first interface of that class. */
  function FindInterface(intfs: seq<Interface>, cls: Byte): (r: Option<nat>)
    ensures r.Some? ==> r.value < |intfs| && intfs[r.value].interfaceClass == cls
    ensures r.Some? ==> forall j :: 0 <= j < r.value ==> intfs[j].interfaceClass != cls
    ensures r.None? ==> forall j :: 0 <= j < |intfs| ==> intfs[j].interfaceClass != cls
  {
    if intfs == [] then None
    else if intfs[0].interfaceClass == cls then Some(0)
    else match FindInterface(intfs[1..], cls)
      case None => None
      case Some(k) => Some(k + 1)
  }

  /** Some interface of the configuration has class `cls`. */
  predicate ConfigurationHas(c: Configuration, cls: Byte) {
    exists j :: 0 <= j < |c.interfaces| && c.interfaces[j].interfaceClass == cls
  }

  /** The loop over a device's configurations in `find_class.__call__`. */
  function AnyConfigurationHas(cfgs: seq<Configuration>, cls: Byte): (b: bool)
    ensures b <==> exists k :: 0 <= k < |cfgs| && ConfigurationHas(cfgs[k], cls)
  {
    if cfgs == [] then false
    else if FindInterface(cfgs[0].interfaces, cls).Some? then true
    else
      var rest := AnyConfigurationHas(cfgs[1..], cls);
      assert forall k :: 1 <= k < |cfgs| ==> cfgs[k] == cfgs[1..][k - 1];
      rest
  }

  /** `find_class(cls)(device)` (picokey/RescuePicoKey.py:36-46): the device
      has that class itself or some configuration has an interface of it. */
  function FindClass(dev: UsbDevice, cls: Byte): (b: bool)
    ensures b <==> (|| dev.deviceClass == cls
                    || exists k :: 0 <= k < |dev.configurations| && ConfigurationHas(dev.configurations[k], cls))
  {
    dev.deviceClass == cls || AnyConfigurationHas(dev.configurations, cls)
  }

  /** `endpoint_direction(bEndpointAddress) == ENDPOINT_IN`: bit 7 of the
      address is set (see `InMaskAgrees`). */
  predicate IsIn(e: Endpoint) {
    e.address >= 0x80
  }

  /** `endpoint_type(bmAttributes) == ENDPOINT_TYPE_INTR`: the two low bits
      are 0b11 (see `TypeMaskAgrees`). */
  predicate IsInterrupt(e: Endpoint) {
    e.attributes % 4 == 3
  }

  lemma InMaskAgrees(e: Endpoint)
    ensures IsIn(e) <==> (e.address as bv8) & 0x80 == 0x80
  {
  }

  lemma TypeMaskAgrees(e: Endpoint)
    ensures IsInterrupt(e) <==> (e.attributes as bv8) & 0x03 == 0x03
  {
  }

  predicate IsBulkInLike(e: Endpoint) {
    IsIn(e) && !IsInterrupt(e)
  }

  predicate IsInterruptIn(e: Endpoint) {
    IsIn(e) && IsInterrupt(e)
  }

  /** `x` is the last bulk-like IN endpoint of `eps`. */
  predicate IsLastBulkIn(eps: seq<Endpoint>, x: Endpoint) {
    exists i :: 0 <= i < |eps| && eps[i] == x && IsBulkInLike(x) && forall j :: i < j < |eps| ==> !IsBulkInLike(eps[j])
  }

  /** `x` is the last interrupt IN endpoint of `eps`. */
  predicate IsLastInterruptIn(eps: seq<Endpoint>, x: Endpoint) {
    exists i :: 0 <= i < |eps| && eps[i] == x && IsInterruptIn(x) && forall j :: i < j < |eps| ==> !IsInterruptIn(eps[j])
  }

  datatype InScan = InScan(bulkIn: Option<Endpoint>, interrupt: Option<Endpoint>)

  /** The loop over the IN endpoints of the vendor interface
      (picokey/RescuePicoKey.py:61-68): an interrupt endpoint goes to `epint`,
      any other to `epin`, and a later one replaces an earlier one. */
  function ScanIn(eps: seq<Endpoint>): (r: InScan)
    ensures r.bulkIn.None? <==> forall i :: 0 <= i < |eps| ==> !IsBulkInLike(eps[i])
    ensures r.bulkIn.Some? ==> IsLastBulkIn(eps, r.bulkIn.value)
    ensures r.interrupt.None? <==> forall i :: 0 <= i < |eps| ==> !IsInterruptIn(eps[i])
    ensures r.interrupt.Some? ==> IsLastInterruptIn(eps, r.interrupt.value)
  {
    if eps == [] then InScan(None, None)
    else
      var init := eps[..|eps| - 1];
      var e := eps[|eps| - 1];
      assert eps == init + [e];
      var prev := ScanIn(init);
      BulkStep(init, e, prev.bulkIn);
      InterruptStep(init, e, prev.interrupt);
      if !IsIn(e) then prev
      else if IsInterrupt(e) then prev.(interrupt := Some(e))
      else prev.(bulkIn := Some(e))
  }

  /** One more endpoint keeps or replaces the bulk IN choice. */
  lemma BulkStep(init: seq<Endpoint>, e: Endpoint, b: Option<Endpoint>)
    requires b.None? <==> forall i :: 0 <= i < |init| ==> !IsBulkInLike(init[i])
    requires b.Some? ==> IsLastBulkIn(init, b.value)
    ensures var eps := init + [e];
      var b' := if IsBulkInLike(e) then Some(e) else b;
      && (b'.None? <==> forall i :: 0 <= i < |eps| ==> !IsBulkInLike(eps[i]))
      && (b'.Some? ==> IsLastBulkIn(eps, b'.value))
  {
    var eps := init + [e];
    if IsBulkInLike(e) {
      assert eps[|eps| - 1] == e;
    } else if b.Some? {
      var i :| 0 <= i < |init| && init[i] == b.value && IsBulkInLike(b.value)
                && forall j :: i < j < |init| ==> !IsBulkInLike(init[j]);
      assert eps[i] == b.value;
    } else {
      assert forall i :: 0 <= i < |init| ==> eps[i] == init[i];
    }
  }

  /** One more endpoint keeps or replaces the interrupt IN choice. */
  lemma InterruptStep(init: seq<Endpoint>, e: Endpoint, b: Option<Endpoint>)
    requires b.None? <==> forall i :: 0 <= i < |init| ==> !IsInterruptIn(init[i])
    requires b.Some? ==> IsLastInterruptIn(init, b.value)
    ensures var eps := init + [e];
      var b' := if IsInterruptIn(e) then Some(e) else b;
      && (b'.None? <==> forall i :: 0 <= i < |eps| ==> !IsInterruptIn(eps[i]))
      && (b'.Some? ==> IsLastInterruptIn(eps, b'.value))
  {
    var eps := init + [e];
    if IsInterruptIn(e) {
      assert eps[|eps| - 1] == e;
    } else if b.Some? {
      var i :| 0 <= i < |init| && init[i] == b.value && IsInterruptIn(b.value)
                && forall j :: i < j < |init| ==> !IsInterruptIn(init[j]);
      assert eps[i] == b.value;
    } else {
      assert forall i :: 0 <= i < |init| ==> eps[i] == init[i];
    }
  }

  /** `list(epo)[0]`: the first OUT endpoint. */
  function FirstOut(eps: seq<Endpoint>): (r: Option<Endpoint>)
    ensures r.None? <==> forall i :: 0 <= i < |eps| ==> IsIn(eps[i])
    ensures r.Some? ==> exists i :: (0 <= i < |eps| && eps[i] == r.value && !IsIn(eps[i])
                                     && forall j :: 0 <= j < i ==> IsIn(eps[j]))
  {
    if eps == [] then None
    else if !IsIn(eps[0]) then Some(eps[0])
    else
      var r := FirstOut(eps[1..]);
      assert forall i :: 1 <= i < |eps| ==> eps[i] == eps[1..][i - 1];
      if r.Some? then
        var i :| 0 <= i < |eps[1..]| && eps[1..][i] == r.value && !IsIn(eps[1..][i])
          && forall j :: 0 <= j < i ==> IsIn(eps[1..][j]);
        assert eps[i + 1] == r.value;
        r
      else r
  }

  /** The endpoint binding of the vendor interface
      (picokey/RescuePicoKey.py:61-73). */
  function Classify(intf: Interface): (r: Result<Endpoints, BindError>)
    ensures r.Success? <==> (&& (exists i :: 0 <= i < |intf.endpoints| && IsBulkInLike(intf.endpoints[i]))
                             && (exists i :: 0 <= i < |intf.endpoints| && !IsIn(intf.endpoints[i])))
    ensures r.Success? ==> exists e :: IsLastBulkIn(intf.endpoints, e) && e.address == r.value.bulkIn
    ensures r.Success? ==> FirstOut(intf.endpoints).Some? && FirstOut(intf.endpoints).value.address == r.value.bulkOut
    ensures r.Success? ==> (r.value.interrupt.Some? <==> exists i :: 0 <= i < |intf.endpoints| && IsInterruptIn(intf.endpoints[i]))
    ensures r.Success? && r.value.interrupt.Some? ==>
      exists e :: IsLastInterruptIn(intf.endpoints, e) && e.address == r.value.interrupt.value
  {
    var scan := ScanIn(intf.endpoints);
    var out := FirstOut(intf.endpoints);
    if scan.bulkIn.None? then Failure(NoBulkIn)
    else if out.None? then Failure(NoBulkOut)
    else
      var intr := match scan.interrupt
        case None => None
        case Some(e) => Some(e.address);
      Success(Endpoints(scan.bulkIn.value.address, out.value.address, intr))
  }

  /** What one device of the enumeration contributes
      (picokey/RescuePicoKey.py:55-78): nothing unless it passes
      `find_class(0x0B)` and names the expected manufacturer; then the first
      vendor-class interface of its active (first) configuration, if any,
      yields an endpoint binding. */
  function Probe(dev: UsbDevice): Result<Option<Endpoints>, BindError> {
    if !FindClass(dev, SmartCardClass) || dev.manufacturer != Manufacturer then Success(None)
    else if dev.configurations == [] then Failure(NoConfiguration)
    else
      var intfs := dev.configurations[0].interfaces;
      match FindInterface(intfs, VendorClass)
      case None => Success(None)
      case Some(k) =>
        match Classify(intfs[k])
        case Failure(e) => Failure(e)
        case Success(eps) => Success(Some(eps))
  }

  predicate Binds(dev: UsbDevice) {
    Probe(dev).Success? && Probe(dev).value.Some?
  }

  /** The number of devices that bind. */
  function BindCount(devs: seq<UsbDevice>): nat {
    if devs == [] then 0 else BindCount(devs[..|devs| - 1]) + (if Binds(devs[|devs| - 1]) then 1 else 0)
  }

  lemma RepeatGrows(q: IccdRequest, k: nat)
    ensures Repeat(q, k) + [q] == Repeat(q, k + 1)
  {
  }

  /** `d` holds the last device of `devs` that binds, with its endpoints. */
  predicate IsLastBinding(devs: seq<UsbDevice>, d: Driver) {
    exists i :: 0 <= i < |devs| && Binds(devs[i]) && d.dev == Some(devs[i])
      && Probe(devs[i]).value == Some(d.endpoints)
      && forall j :: i < j < |devs| ==> !Binds(devs[j])
  }

  /** The device loop of the constructor: each device that binds replaces
      the previous binding (the `break` only leaves the interface loop),
      resets the power flag to None and issues a power-off. */
  function ScanDevices(devs: seq<UsbDevice>): (r: Result<Option<Driver>, BindError>)
    ensures r.Success? <==> forall i :: 0 <= i < |devs| ==> Probe(devs[i]).Success?
    ensures r.Success? ==> (r.value.None? <==> BindCount(devs) == 0)
    ensures r.Success? && r.value.Some? ==> r.value.value.active == Off && HasCard(r.value.value)
    ensures r.Success? && r.value.Some? ==> r.value.value.issued == Repeat(IccPowerOff, BindCount(devs))
    ensures r.Success? && r.value.Some? ==> IsLastBinding(devs, r.value.value)
  {
    if devs == [] then Success(None)
    else
      var init := devs[..|devs| - 1];
      var last := devs[|devs| - 1];
      assert devs == init + [last];
      ProbesExtend(init, last);
      assert BindCount(devs) == BindCount(init) + (if Binds(last) then 1 else 0);
      match ScanDevices(init)
      case Failure(e) => Failure(e)
      case Success(acc) =>
        match Probe(last)
        case Failure(e) => Failure(e)
        case Success(None) =>
          assert acc.Some? ==> IsLastBinding(devs, acc.value) by {
            if acc.Some? { LastBindingExtends(init, last, acc.value); }
          }
          Success(acc)
        case Success(Some(eps)) =>
          var sofar := if acc.Some? then acc.value.issued else [];
          assert sofar == Repeat(IccPowerOff, BindCount(init));
          var bound := PowerOff(Driver(Some(last), eps, Unset, sofar));
          assert bound.issued == sofar + [IccPowerOff];
          RepeatGrows(IccPowerOff, BindCount(init));
          assert IsLastBinding(devs, bound) by {
            assert devs[|devs| - 1] == last;
          }
          Success(Some(bound))
  }

  lemma ProbesExtend(init: seq<UsbDevice>, last: UsbDevice)
    ensures var devs := init + [last];
      (forall i :: 0 <= i < |devs| ==> Probe(devs[i]).Success?) <==>
      ((forall i :: 0 <= i < |init| ==> Probe(init[i]).Success?) && Probe(last).Success?)
  {
    var devs := init + [last];
    assert forall i :: 0 <= i < |init| ==> devs[i] == init[i];
    assert devs[|init|] == last;
  }

  lemma LastBindingExtends(init: seq<UsbDevice>, last: UsbDevice, d: Driver)
    requires IsLastBinding(init, d) && !Binds(last)
    ensures IsLastBinding(init + [last], d)
  {
    var devs := init + [last];
    var i :| 0 <= i < |init| && Binds(init[i]) && d.dev == Some(init[i])
      && Probe(init[i]).value == Some(d.endpoints)
      && forall j :: i < j < |init| ==> !Binds(init[j]);
    assert devs[i] == init[i];
    assert forall j :: i < j < |devs| ==> devs[j] == last || devs[j] == init[j];
  }

  /** The constructor (picokey/RescuePicoKey.py:29-80). `enumeration` is what
      `usb.core.find` yields, `None` when it raised (then no device is seen).
      A bound driver holds the last device that binds, is powered off and has
      issued one power-off per device it bound. */
  function Bind(enumeration: Option<seq<UsbDevice>>): (r: Result<Driver, BindError>)
    ensures var devs := enumeration.GetOr([]);
      && (r == Failure(NotFound) <==> (forall i :: 0 <= i < |devs| ==> Probe(devs[i]).Success?) && BindCount(devs) == 0)
      && (r.Success? ==> (&& r.value.active == Off && HasCard(r.value)
                          && Count(r.value.issued, IccPowerOn) == 0
                          && r.value.issued == Repeat(IccPowerOff, BindCount(devs)) && BindCount(devs) >= 1))
      && (r.Success? ==> IsLastBinding(devs, r.value))
      && ((exists i :: 0 <= i < |devs| && Probe(devs[i]).Failure?) ==> r.Failure? && r != Failure(NotFound))
  {
    var devs := enumeration.GetOr([]);
    match ScanDevices(devs)
    case Failure(e) =>
      assert e != NotFound by { ProbeNeverNotFound(devs); }
      Failure(e)
    case Success(None) => Failure(NotFound)
    case Success(Some(d)) =>
      NoPowerOnInRepeat(BindCount(devs));
      Success(d)
  }

  lemma ProbeNeverNotFound(devs: seq<UsbDevice>)
    ensures ScanDevices(devs).Failure? ==> ScanDevices(devs).error != NotFound
  {
    if devs != [] {
      ProbeNeverNotFound(devs[..|devs| - 1]);
    }
  }

  lemma {:induction false} NoPowerOnInRepeat(k: nat)
    ensures Count(Repeat(IccPowerOff, k), IccPowerOn) == 0
  {
    if k > 0 {
      assert Repeat(IccPowerOff, k)[..k - 1] == Repeat(IccPowerOff, k - 1);
      NoPowerOnInRepeat(k - 1);
    }
  }
}

=== FILE: rescue_monitor.dfy ===
/** `RescueMonitor` (picokey/RescueMonitor.py): a poller that watches whether
    the bound USB device is still on the bus and reports attach and detach
    edges to an observer.

    The worker thread and its sleep are not modelled: one iteration of the
    poll loop is a pure step from the "device present" flag and what the bus
    showed to the new flag and at most one notification. `D` stands for a
    USB device handle. */
module RescueMonitor {
  import opened Wrappers

  /** `_running`, `_device_present`, and whether a callback is registered. */
  datatype Monitor = Monitor(running: bool, present: bool, hasCallback: bool)

  /** The two observer hooks. */
  datatype Notification<D> = Connected(device: D) | Disconnected(device: D)

  /** The `(connected, disconnected)` pair an observer's `update` receives. */
  datatype Observation<D> = Observation(connected: Option<D>, disconnected: Option<D>)

  /** `RescueMonitorObserver.on_connect` / `on_disconnect`
      (picokey/RescueMonitor.py:35-39): the device goes in the slot of its
      kind and the other slot is None. */
  function Deliver<D>(n: Notification<D>): (o: Observation<D>)
    ensures n.Connected? <==> o.connected.Some?
    ensures n.Disconnected? <==> o.disconnected.Some?
    ensures o.connected.Some? ==> o.connected.value == n.device
    ensures o.disconnected.Some? ==> o.disconnected.value == n.device
  {
    match n
    case Connected(d) => Observation(Some(d), None)
    case Disconnected(d) => Observation(None, Some(d))
  }

  /** `RescueMonitor.__init__` (picokey/RescueMonitor.py:42-49): not running,
      device absent, then `start()`. */
  function New(hasCallback: bool): (m: Monitor)
    ensures m.running && !m.present && m.hasCallback == hasCallback
  {
    Start(Monitor(false, false, hasCallback))
  }

  /** `start` (picokey/RescueMonitor.py:51-56): a no-op when already
      running; the thread launch is not modelled. */
  function Start(m: Monitor): (r: Monitor)
    ensures r.running && r.present == m.present && r.hasCallback == m.hasCallback
  {
    if m.running then m else m.(running := true)
  }

  /** `stop` (picokey/RescueMonitor.py:58-61): clears the running flag and
      nothing else. */
  function Stop(m: Monitor): (r: Monitor)
    ensures !r.running && r.present == m.present && r.hasCallback == m.hasCallback
  {
    m.(running := false)
  }

  lemma StartStopIdempotent(m: Monitor)
    ensures Start(Start(m)) == Start(m) && Stop(Stop(m)) == Stop(m)
    ensures m.running ==> Start(m) == m
  {
  }

  datatype Polled<D> = Polled(monitor: Monitor, notice: Option<Notification<D>>)

  /** One iteration of `_run` (picokey/RescueMonitor.py:64-82). `bound` is
      `self._dev.device` (None when the driver is gone or closed); `found` is
      what `usb.core.find` returned for its vendor and product ids. */
  function Poll<D>(m: Monitor, bound: Option<D>, found: Option<D>): (p: Polled<D>)
    ensures p.monitor.running == m.running && p.monitor.hasCallback == m.hasCallback
    ensures bound.None? ==> p == Polled(m, None)
    ensures bound.Some? ==> p.monitor.present == found.Some?
    ensures p.notice.Some? ==> m.hasCallback && bound.Some?
    ensures p.notice.Some? && p.notice.value.Connected? <==>
      m.hasCallback && bound.Some? && found.Some? && !m.present
    ensures p.notice.Some? && p.notice.value.Disconnected? <==>
      m.hasCallback && bound.Some? && found.None? && m.present
    ensures p.notice.Some? && p.notice.value.Connected? ==> p.notice.value.device == found.value
    ensures p.notice.Some? && p.notice.value.Disconnected? ==> p.notice.value.device == bound.value
  {
    if bound.None? then Polled(m, None)
    else if found.Some? && !m.present then
      Polled(m.(present := true), if m.hasCallback then Some(Connected(found.value)) else None)
    else if found.None? && m.present then
      Polled(m.(present := false), if m.hasCallback then Some(Disconnected(bound.value)) else None)
    else Polled(m, None)
  }

  /** What the bus showed in one poll: the bound handle and the lookup. */
  datatype Sample<D> = Sample(bound: Option<D>, found: Option<D>)

  datatype Ran<D> = Ran(monitor: Monitor, notices: seq<Notification<D>>)

  /** The loop over a run of polls; nothing happens once `running` is false. */
  function Run<D>(m: Monitor, samples: seq<Sample<D>>): Ran<D>
    decreases |samples|
  {
    if samples == [] || !m.running then Ran(m, [])
    else
      var p := Poll(m, samples[0].bound, samples[0].found);
      var rest := Run(p.monitor, samples[1..]);
      Ran(rest.monitor, (if p.notice.Some? then [p.notice.value] else []) + rest.notices)
  }

  /** Notifications alternate in kind, the first one being a connect exactly
      when the device was absent. */
  predicate Alternates<D>(ns: seq<Notification<D>>, present: bool) {
    forall i :: 0 <= i < |ns| ==> (ns[i].Connected? <==> (i % 2 == 0) != present)
  }

  function Connects<D>(ns: seq<Notification<D>>): nat {
    if ns == [] then 0 else (if ns[0].Connected? then 1 else 0) + Connects(ns[1..])
  }

  /** Over any run of polls, with a callback registered, notifications
      alternate between connect and disconnect, and the final flag is the
      starting flag flipped once per notification. */
  lemma {:induction false} RunAlternates<D>(m: Monitor, samples: seq<Sample<D>>)
    requires m.hasCallback
    ensures var r := Run(m, samples);
      && Alternates(r.notices, m.present)
      && r.monitor.present == (m.present != (|r.notices| % 2 == 1))
    decreases |samples|
  {
    if samples != [] && m.running {
      var p := Poll(m, samples[0].bound, samples[0].found);
      RunAlternates(p.monitor, samples[1..]);
    }
  }

  /** Starting from a fresh monitor, disconnects never outnumber connects and
      trail them by at most one. */
  lemma RunCountsBalance<D>(samples: seq<Sample<D>>)
    ensures var ns := Run(New(true), samples).notices;
      var c := Connects(ns);
      c - (|ns| - c) in {0, 1}
  {
    var ns := Run(New(true), samples).notices;
    RunAlternates(New(true), samples);
    AlternatingCount(ns);
  }

  lemma {:induction false} AlternatingCount<D>(ns: seq<Notification<D>>)
    requires Alternates(ns, false)
    ensures Connects(ns) == (|ns| + 1) / 2
    decreases |ns|
  {
    if ns != [] {
      var tail := ns[1..];
      assert Alternates(tail, true) by {
        forall i | 0 <= i < |tail| ensures tail[i].Connected? <==> (i % 2 == 0) != true {
          assert tail[i] == ns[i + 1];
        }
      }
      if tail != [] {
        var t2 := tail[1..];
        assert Alternates(t2, false) by {
          forall i | 0 <= i < |t2| ensures t2[i].Connected? <==> (i % 2 == 0) != false {
            assert t2[i] == ns[i + 2];
          }
        }
        AlternatingCount(t2);
        assert !tail[0].Connected? by { assert tail[0] == ns[1]; }
        assert Connects(tail) == Connects(t2);
      }
    }
  }
}

=== FILE: session.dfy ===
/** The device session `PicoKey` (picokey/PicoKey.py): command exchange with
    its status-word policy, GET RESPONSE chaining, one reconnect-and-retry on
    transport failure, optional secure-channel wrapping, and teardown.

    The card's transport is a scripted `Link`: the k-th transmission of one
    call meets the k-th scripted outcome, and a transmission past the end of
    the script fails. Reconnecting succeeds only for a smartcard whose script
    says so: the rescue driver has no `reconnect`, so the call raises. */
module Session {
  import opened Wrappers
  import opened Bytes
  import opened Apdu
  import NamedIntEnum
  import RescueDriver
  import RescueMonitor

  // ---------------------------------------------------------------------
  // Enumerations declared in picokey/PicoKey.py:34-49
  // ---------------------------------------------------------------------

  const Platform: NamedIntEnum.EnumClass := [
    NamedIntEnum.Member("RP2040", 0), NamedIntEnum.Member("RP2350", 1),
    NamedIntEnum.Member("ESP32", 2), NamedIntEnum.Member("EMULATION", 3)]

  const Product: NamedIntEnum.EnumClass := [
    NamedIntEnum.Member("UNKNOWN", 0), NamedIntEnum.Member("HSM", 1),
    NamedIntEnum.Member("FIDO", 2), NamedIntEnum.Member("OPENPGP", 3)]

  const ConnectionType: NamedIntEnum.EnumClass := [
    NamedIntEnum.Member("UNKNOWN", 0), NamedIntEnum.Member("SMARTCARD", 1),
    NamedIntEnum.Member("RESCUE", 2)]

  const UnknownConnection := ConnectionType[0]
  const SmartcardConnection := ConnectionType[1]
  const RescueConnection := ConnectionType[2]

  /** Platform, product and firmware version read from the applet SELECT. */
  datatype Identity = Identity(platform: NamedIntEnum.Member, product: NamedIntEnum.Member, major: Byte, minor: Byte)

  // ---------------------------------------------------------------------
  // Session state
  // ---------------------------------------------------------------------

  /** The open transport: a PC/SC card connection or the rescue driver. */
  datatype Card = Smartcard | Rescue(driver: RescueDriver.Driver)

  /** The removal watcher the session registered: none, a PC/SC card
      monitor with its observer, or the rescue monitor. */
  datatype Watcher = NoWatcher | CardWatcher | RescueWatcher(monitor: RescueMonitor.Monitor)

  /** A secure channel as far as the session sees it: how it wraps a command
      frame and unwraps a response into payload and 16-bit status code. The
      cryptography behind them is not part of this model. */
  datatype Channel = Channel(wrap: seq<Byte> -> seq<Byte>, unwrap: seq<Byte> -> (seq<Byte>, int))

  datatype Session = Session(
    card: Option<Card>,
    connection: NamedIntEnum.Member,
    watcher: Watcher,
    lastFrame: seq<Byte>,
    channel: Option<Channel>,
    identity: Identity)

  /** The exceptions a session call raises. */
  datatype Error =
    | NotFound              // PicoKeyNotFoundError
    | InvalidState          // PicoKeyInvalidStateError
    | Status(sw1: int, sw2: int)  // APDUResponse(sw1, sw2)
    | Overflow              // OverflowError from int.to_bytes
    | TransportFault        // a transport exception raised outside the retry wrapper
    | ReconnectFault        // `reconnect` raised (resend does not catch it)
    | NoTransport           // AttributeError: the session holds no card
    | AuthenticationFailed  // secure-channel token verification failed
    | IndexError            // a response too short for its layout
    | TypeError             // `hex()` of a list command in send's first log line

  /** A session keeps its transport and its removal watcher in step: a
      closed session watches nothing and a rescue session owns the monitor
      that `close` stops. */
  predicate Coherent(s: Session) {
    match s.card
    case None => s.watcher.NoWatcher?
    case Some(Smartcard) => !s.watcher.RescueWatcher?
    case Some(Rescue(_)) => s.watcher.RescueWatcher?
  }

  // ---------------------------------------------------------------------
  // The scripted transport
  // ---------------------------------------------------------------------

  datatype TxOutcome = Answer(reply: Reply) | Fault

  /** The outcomes of successive transmissions within one call, whether a
      smartcard `reconnect` succeeds, and whether a smartcard `disconnect`
      succeeds should the call end in `close`. */
  datatype Link = Link(outcomes: seq<TxOutcome>, reconnectOk: bool, disconnectOk: bool)

  function OutcomeAt(link: Link, k: nat): TxOutcome {
    if k < |link.outcomes| then link.outcomes[k] else Fault
  }

  /** Teardown steps of `close`. */
  datatype TeardownStep = StopMonitor | DisposeUsb | RemoveObserver | Disconnect | Release

  /** What one call did on the wire, in order. */
  datatype Event = Sent(frame: seq<Byte>) | Reconnect | Teardown(step: TeardownStep)

  function Reconnects(events: seq<Event>): nat {
    if events == [] then 0 else (if events[0] == Reconnect then 1 else 0) + Reconnects(events[1..])
  }

  lemma {:induction false} ReconnectsAppend(a: seq<Event>, b: seq<Event>)
    ensures Reconnects(a + b) == Reconnects(a) + Reconnects(b)
    decreases |a|
  {
    if a != [] {
      assert (a + b)[1..] == a[1..] + b;
      ReconnectsAppend(a[1..], b);
    } else {
      assert a + b == b;
    }
  }

  function Teardowns(steps: seq<TeardownStep>): (r: seq<Event>)
    ensures |r| == |steps| && Reconnects(r) == 0
  {
    if steps == [] then [] else [Teardown(steps[0])] + Teardowns(steps[1..])
  }

  /** Whether the card's `reconnect` succeeds. */
  predicate CanReconnect(card: Card, link: Link) {
    card.Smartcard? && link.reconnectOk
  }

  // ---------------------------------------------------------------------
  // close
  // ---------------------------------------------------------------------

  datatype Closed = Closed(session: Session, steps: seq<TeardownStep>)

  /** `close` (picokey/PicoKey.py:201-225). A rescue session stops its
      monitor and closes the USB driver; a smartcard session removes its
      observer, if it registered one, then disconnects and releases the
      connection, skipping the release when the disconnect raises (the
      error is swallowed). The card is gone afterwards whatever happened;
      with no card it does nothing. */
  function Close(s: Session, disconnectOk: bool): (c: Closed)
    requires Coherent(s)
    ensures c.session.card.None? && Coherent(c.session)
    ensures c.session.lastFrame == s.lastFrame && c.session.channel == s.channel
    ensures c.session.identity == s.identity && c.session.connection == s.connection
    ensures s.card.None? ==> c == Closed(s, [])
    ensures (StopMonitor in c.steps) <==> s.card.Some? && s.card.value.Rescue?
    ensures (Disconnect in c.steps) <==> s.card == Some(Smartcard)
    ensures s.card == Some(Smartcard) ==> (Release in c.steps <==> disconnectOk)
    ensures Release in c.steps ==> disconnectOk
    ensures (RemoveObserver in c.steps) <==> s.card == Some(Smartcard) && s.watcher.CardWatcher?
    ensures (DisposeUsb in c.steps) <==> s.card.Some? && s.card.value.Rescue? && RescueDriver.HasCard(s.card.value.driver)
  {
    match s.card
    case None => Closed(s, [])
    case Some(Rescue(d)) =>
      var dc := RescueDriver.Close(d);
      Closed(s.(card := None, watcher := NoWatcher), [StopMonitor] + (if dc.disposed then [DisposeUsb] else []))
    case Some(Smartcard) =>
      var unwatch := if s.watcher.CardWatcher? then [RemoveObserver] else [];
      Closed(s.(card := None, watcher := NoWatcher),
             unwatch + [Disconnect] + (if disconnectOk then [Release] else []))
  }

  /** Closing twice: the second close finds no card and does nothing. */
  lemma CloseIdempotent(s: Session, ok1: bool, ok2: bool)
    requires Coherent(s)
    ensures var c := Close(s, ok1).session; Close(c, ok2) == Closed(c, [])
  {
  }

  // ---------------------------------------------------------------------
  // transmit, send, resend
  // ---------------------------------------------------------------------

  /** `transmit` (picokey/PicoKey.py:227-236): one raw exchange with no
      status check; no card is NotFound and a transport failure is
      InvalidState. */
  function Transmit(s: Session, o: TxOutcome): (r: Result<Reply, Error>)
    ensures r.Success? <==> s.card.Some? && o.Answer?
    ensures r.Success? ==> r.value == o.reply
    ensures r.Failure? ==> r.error == (if s.card.None? then NotFound else InvalidState)
  {
    if s.card.None? then Failure(NotFound)
    else match o
      case Answer(reply) => Success(reply)
      case Fault => Failure(InvalidState)
  }

  /** The frame as it goes on the wire: wrapped when a channel is open. */
  function Wire(channel: Option<Channel>, frame: seq<Byte>): seq<Byte> {
    match channel
    case None => frame
    case Some(c) => c.wrap(frame)
  }

  /** `lost`: the reconnect failed and the session must be closed. `used`:
      how many scripted outcomes the exchange consumed. */
  datatype Exchanged = Exchanged(outcome: Result<Reply, Error>, events: seq<Event>, used: nat, lost: bool)

  /** The transmit-with-recovery block of `send` (picokey/PicoKey.py:266-281):
      a failed transmission is followed by exactly one reconnect and, if that
      succeeds, exactly one retransmission of the same wire frame. */
  function Exchange(card: Card, wire: seq<Byte>, link: Link): (x: Exchanged)
    ensures |x.events| >= 1 && x.events[0] == Sent(wire)
    ensures forall i :: 0 <= i < |x.events| ==> x.events[i] == Sent(wire) || x.events[i] == Reconnect
    ensures Reconnects(x.events) == (if OutcomeAt(link, 0).Fault? then 1 else 0)
    ensures x.used == |x.events| - Reconnects(x.events)
    ensures x.outcome.Success? <==>
      OutcomeAt(link, 0).Answer? || (CanReconnect(card, link) && OutcomeAt(link, 1).Answer?)
    ensures x.outcome.Success? ==> 1 <= x.used && OutcomeAt(link, x.used - 1) == Answer(x.outcome.value)
    ensures x.lost <==> OutcomeAt(link, 0).Fault? && !CanReconnect(card, link)
    ensures x.outcome.Failure? ==> x.outcome.error == (if x.lost then NotFound else InvalidState)
  {
    match OutcomeAt(link, 0)
    case Answer(r) => Exchanged(Success(r), [Sent(wire)], 1, false)
    case Fault =>
      if !CanReconnect(card, link) then
        assert Reconnects([Sent(wire), Reconnect]) == 1 by {
          assert [Sent(wire), Reconnect][1..] == [Reconnect];
          assert [Reconnect][1..] == [];
        }
        Exchanged(Failure(NotFound), [Sent(wire), Reconnect], 1, true)
      else
        var ev := [Sent(wire), Reconnect, Sent(wire)];
        assert Reconnects(ev) == 1 by {
          assert ev[1..] == [Reconnect, Sent(wire)];
          assert ev[1..][1..] == [Sent(wire)];
          assert ev[1..][1..][1..] == [];
        }
        (match OutcomeAt(link, 1)
         case Answer(r) => Exchanged(Success(r), ev, 2, false)
         case Fault => Exchanged(Failure(InvalidState), ev, 2, false))
  }

  datatype Chained = Chained(outcome: Result<Reply, Error>, events: seq<Event>)

  /** The GET RESPONSE loop of `send` (picokey/PicoKey.py:293-299), starting
      at scripted outcome `k` and asking for `le` bytes: it repeats while
      SW1 is 0x61, each time asking for the length the previous SW2
      announced, and concatenates the chunks. A transport failure inside the
      loop is not caught. */
  function Chain(link: Link, k: nat, le: Byte): (c: Chained)
    ensures |c.events| >= 1 && c.events[0] == Sent(GetResponse(le))
    ensures forall i :: 0 <= i < |c.events| ==> c.events[i].Sent? && |c.events[i].frame| == 5
    ensures c.outcome.Success? ==> c.outcome.value.sw1 != MoreData
    ensures c.outcome.Failure? ==> c.outcome.error == TransportFault
    ensures OutcomeAt(link, k).Fault? ==> c == Chained(Failure(TransportFault), [Sent(GetResponse(le))])
    ensures OutcomeAt(link, k).Answer? && OutcomeAt(link, k).reply.sw1 != MoreData ==>
      c == Chained(Success(OutcomeAt(link, k).reply), [Sent(GetResponse(le))])
    decreases |link.outcomes| - k
  {
    match OutcomeAt(link, k)
    case Fault => Chained(Failure(TransportFault), [Sent(GetResponse(le))])
    case Answer(r) =>
      if r.sw1 == MoreData then
        var rest := Chain(link, k + 1, r.sw2);
        var outcome := match rest.outcome
          case Failure(e) => Failure(e)
          case Success(f) => Success(Reply(r.payload + f.payload, f.sw1, f.sw2));
        Chained(outcome, [Sent(GetResponse(le))] + rest.events)
      else Chained(Success(r), [Sent(GetResponse(le))])
  }

  /** The status-word policy of `send` (picokey/PicoKey.py:283-301) applied to
      the first answer: SW1 0x90 passes untouched; otherwise a 0x63Cx warning
      is kept as is, SW1 0x61 is chained, and the resulting code must be
      0x9000 or one the caller accepts. */
  function Settle(r: Reply, codes: seq<int>, link: Link, k: nat): (c: Chained)
    ensures r.sw1 == 0x90 ==> c == Chained(Success(r), [])
    ensures c.outcome.Success? ==> r.sw1 == 0x90 || Accepted(StatusCode(c.outcome.value.sw1, c.outcome.value.sw2), codes)
    ensures c.outcome.Failure? && c.outcome.error.Status? ==>
      !Accepted(c.outcome.error.sw1 * 256 + c.outcome.error.sw2, codes)
    ensures r.sw1 != MoreData ==> c.events == []
    ensures forall i :: 0 <= i < |c.events| ==> c.events[i].Sent? && |c.events[i].frame| == 5
    ensures c.outcome.Failure? ==> c.outcome.error.Status? || c.outcome.error == TransportFault
    ensures r.sw1 != 0x90 && r.sw1 != MoreData ==>
      && (c.outcome.Success? <==> Accepted(StatusCode(r.sw1, r.sw2), codes))
      && (c.outcome.Failure? ==> c.outcome.error == Status(r.sw1, r.sw2))
    ensures r.sw1 != MoreData && c.outcome.Success? ==> c.outcome.value == r
    ensures r.sw1 == MoreData ==>
      var ch := Chain(link, k, r.sw2);
      && c.events == ch.events
      && (ch.outcome.Failure? ==> c.outcome == ch.outcome)
      && (ch.outcome.Success? ==>
            var f := ch.outcome.value;
            && (c.outcome.Success? <==> Accepted(StatusCode(f.sw1, f.sw2), codes))
            && (c.outcome.Success? ==> c.outcome.value == f)
            && (c.outcome.Failure? ==> c.outcome.error == Status(f.sw1, f.sw2)))
  {
    if r.sw1 == 0x90 then Chained(Success(r), [])
    else
      var fin :=
        if CounterWarning(r.sw1, r.sw2) then Chained(Success(r), [])
        else if r.sw1 == MoreData then Chain(link, k, r.sw2)
        else Chained(Success(r), []);
      match fin.outcome
      case Failure(_) => fin
      case Success(f) =>
        if Accepted(StatusCode(f.sw1, f.sw2), codes) then fin
        else Chained(Failure(Status(f.sw1, f.sw2)), fin.events)
  }

  /** What `send` returns: `(bytes(response), code)`. */
  datatype Response = Response(payload: seq<Byte>, code: int)

  /** The tail of `send` (picokey/PicoKey.py:303-308): with a channel, the
      response is unwrapped and the unwrapped code is checked again. */
  function Finish(channel: Option<Channel>, f: Reply, codes: seq<int>): (r: Result<Response, Error>)
    ensures channel.None? ==> r == Success(Response(f.payload, StatusCode(f.sw1, f.sw2)))
    ensures channel.Some? && r.Success? ==> Accepted(r.value.code, codes)
    ensures channel.Some? && r.Failure? ==>
      r.error.Status? && !Accepted(r.error.sw1 * 256 + r.error.sw2, codes)
    ensures channel.Some? ==>
      var (p, code) := channel.value.unwrap(f.payload);
      && (r.Success? <==> Accepted(code, codes))
      && (r.Success? ==> r.value == Response(p, code))
      && (r.Failure? ==> r.error == Status(code / 256, code % 256))
  {
    match channel
    case None => Success(Response(f.payload, StatusCode(f.sw1, f.sw2)))
    case Some(c) =>
      var (p, code) := c.unwrap(f.payload);
      if Accepted(code, codes) then Success(Response(p, code))
      else Failure(Status(code / 256, code % 256))
  }

  datatype SendRun = SendRun(session: Session, result: Result<Response, Error>, events: seq<Event>)

  /** `send` (picokey/PicoKey.py:238-308) as written. Its first statement
      logs `hex(command)`, and `hex` of a list raises TypeError, so a list
      command fails there, before the card check, with nothing stored or
      sent. An instruction byte goes on to the exchange `Transfer`. */
  function Send(s: Session, req: Request, link: Link): (run: SendRun)
    requires Coherent(s)
    ensures req.command.Opcode? ==> run == SendRun(s, Failure(TypeError), [])
    ensures req.command.Ins? ==> run == Transfer(s, req, link)
  {
    if req.command.Opcode? then SendRun(s, Failure(TypeError), [])
    else Transfer(s, req, link)
  }

  /** `send` past its first log line (picokey/PicoKey.py:240-308): the card
      check, the frame, the exchange and the status-word policy. For an
      instruction byte this is what `send` does; for a list command it is
      what the branch at picokey/PicoKey.py:254-255 would do, were the log
      line not to raise first. */
  function Transfer(s: Session, req: Request, link: Link): (run: SendRun)
    requires Coherent(s) && WellFormedCommand(req.command)
    ensures Coherent(run.session)
    ensures run.session.channel == s.channel && run.session.identity == s.identity
    ensures run.session.connection == s.connection
    ensures s.card.None? ==> run == SendRun(s, Failure(NotFound), [])
    ensures s.card.Some? && BuildFrame(req).None? ==> run == SendRun(s, Failure(Overflow), [])
    ensures s.card.Some? && BuildFrame(req).Some? ==>
      && run.session.lastFrame == BuildFrame(req).value
      && |run.events| >= 1 && run.events[0] == Sent(Wire(s.channel, BuildFrame(req).value))
      && Reconnects(run.events) == (if OutcomeAt(link, 0).Fault? then 1 else 0)
      && (run.session.card.None? <==> OutcomeAt(link, 0).Fault? && !CanReconnect(s.card.value, link))
      && (run.session.card.Some? ==> run.session.watcher == s.watcher)
    ensures run.session.card.None? && s.card.Some? ==> run.result == Failure(NotFound)
    ensures run.result.Success? && s.channel.None? ==>
      run.result.value.code / 256 == 0x90 || Accepted(run.result.value.code, req.codes)
    ensures run.result.Success? && s.channel.Some? ==> Accepted(run.result.value.code, req.codes)
    ensures run.result.Failure? && run.result.error.Status? ==>
      !Accepted(run.result.error.sw1 * 256 + run.result.error.sw2, req.codes)
    ensures s.card.Some? && BuildFrame(req).Some? ==> run == Dispatch(s, BuildFrame(req).value, req.codes, link)
  {
    if s.card.None? then SendRun(s, Failure(NotFound), [])
    else match BuildFrame(req)
      case None => SendRun(s, Failure(Overflow), [])
      case Some(frame) => Dispatch(s, frame, req.codes, link)
  }

  /** The reconnect failed: `close` runs, its steps follow the exchange's
      events, and the device is reported as not found. */
  function Abandon(s: Session, events: seq<Event>, disconnectOk: bool): (run: SendRun)
    requires Coherent(s) && |events| >= 1
    ensures var c := Close(s, disconnectOk);
      run == SendRun(c.session, Failure(NotFound), events + Teardowns(c.steps))
    ensures |run.events| >= 1 && run.events[0] == events[0]
    ensures Reconnects(run.events) == Reconnects(events)
  {
    var c := Close(s, disconnectOk);
    ReconnectsAppend(events, Teardowns(c.steps));
    assert (events + Teardowns(c.steps))[0] == events[0];
    SendRun(c.session, Failure(NotFound), events + Teardowns(c.steps))
  }

  /** `send` once the frame is built: remember it, transmit it (wrapped when
      a channel is open) with one reconnect-and-retry, then either close the
      session (the reconnect failed) or conclude. */
  function Dispatch(s: Session, frame: seq<Byte>, codes: seq<int>, link: Link): (run: SendRun)
    requires Coherent(s) && s.card.Some?
    ensures Coherent(run.session)
    ensures run.session.channel == s.channel && run.session.identity == s.identity
    ensures run.session.connection == s.connection && run.session.lastFrame == frame
    ensures |run.events| >= 1 && run.events[0] == Sent(Wire(s.channel, frame))
    ensures Reconnects(run.events) == (if OutcomeAt(link, 0).Fault? then 1 else 0)
    ensures run.session.card.None? <==> OutcomeAt(link, 0).Fault? && !CanReconnect(s.card.value, link)
    ensures run.session.card.Some? ==> run.session.watcher == s.watcher
    ensures run.session.card.None? ==> run.result == Failure(NotFound)
    ensures run.result.Success? && s.channel.None? ==>
      run.result.value.code / 256 == 0x90 || Accepted(run.result.value.code, codes)
    ensures run.result.Success? && s.channel.Some? ==> Accepted(run.result.value.code, codes)
    ensures run.result.Failure? && run.result.error.Status? ==>
      !Accepted(run.result.error.sw1 * 256 + run.result.error.sw2, codes)
    ensures var x := Exchange(s.card.value, Wire(s.channel, frame), link);
      && (!x.lost && x.outcome.Failure? ==> run == SendRun(s.(lastFrame := frame), Failure(x.outcome.error), x.events))
      && (x.outcome.Success? ==>
            && 1 <= x.used && OutcomeAt(link, x.used - 1) == Answer(x.outcome.value)
            && var c := Conclude(s.channel, x.outcome.value, codes, link, x.used);
               run == SendRun(s.(lastFrame := frame), c.0, x.events + c.1))
    ensures var x := Exchange(s.card.value, Wire(s.channel, frame), link);
      x.lost ==> var c := Close(s.(lastFrame := frame), link.disconnectOk);
        run == SendRun(c.session, Failure(NotFound), x.events + Teardowns(c.steps))
  {
    var s1 := s.(lastFrame := frame);
    var x := Exchange(s.card.value, Wire(s.channel, frame), link);
    if x.lost then Abandon(s1, x.events, link.disconnectOk)
    else match x.outcome
      case Failure(e) => SendRun(s1, Failure(e), x.events)
      case Success(r) =>
        var (result, more) := Conclude(s.channel, r, codes, link, x.used);
        ReconnectsAppend(x.events, more);
        assert (x.events + more)[0] == x.events[0];
        SendRun(s1, result, x.events + more)
  }

  /** Everything `send` does after the first answer: the status-word policy,
      chaining, and the secure-channel check. */
  function Conclude(channel: Option<Channel>, r: Reply, codes: seq<int>, link: Link, k: nat): (c: (Result<Response, Error>, seq<Event>))
    ensures Reconnects(c.1) == 0
    ensures c.0.Success? && channel.None? ==> c.0.value.code / 256 == 0x90 || Accepted(c.0.value.code, codes)
    ensures c.0.Success? && channel.Some? ==> Accepted(c.0.value.code, codes)
    ensures c.0.Failure? && c.0.error.Status? ==> !Accepted(c.0.error.sw1 * 256 + c.0.error.sw2, codes)
    ensures var st := Settle(r, codes, link, k);
      && c.1 == st.events
      && (st.outcome.Failure? ==> c.0 == Failure(st.outcome.error))
      && (st.outcome.Success? ==> c.0 == Finish(channel, st.outcome.value, codes))
  {
    var st := Settle(r, codes, link, k);
    ChainedEventsHaveNoReconnect(st.events);
    match st.outcome
    case Failure(e) => (Failure(e), st.events)
    case Success(f) =>
      var result := Finish(channel, f, codes);
      assert result.Success? && channel.None? ==> result.value.code / 256 == 0x90 || Accepted(result.value.code, codes) by {
        if result.Success? && channel.None? && r.sw1 == 0x90 {
          assert f == r;
        }
      }
      (result, st.events)
  }

  lemma {:induction false} ChainedEventsHaveNoReconnect(ev: seq<Event>)
    requires forall i :: 0 <= i < |ev| ==> ev[i].Sent?
    ensures Reconnects(ev) == 0
    decreases |ev|
  {
    if ev != [] {
      ChainedEventsHaveNoReconnect(ev[1..]);
    }
  }

  datatype Resent = Resent(result: Result<Reply, Error>, events: seq<Event>)

  /** `resend` (picokey/PicoKey.py:310-322): sends the stored plain frame
      again (wrapped anew when a channel is open) with the same single
      reconnect-and-retry, but lets a failing reconnect or retransmission
      raise, closes nothing and checks no status word. With no card the
      first call on it raises. */
  function Resend(s: Session, link: Link): (r: Resent)
    ensures s.card.None? ==> r == Resent(Failure(NoTransport), [])
    ensures forall i :: 0 <= i < |r.events| ==> r.events[i] == Sent(Wire(s.channel, s.lastFrame)) || r.events[i] == Reconnect
    ensures Reconnects(r.events) <= 1
    ensures r.result.Success? <==>
      (s.card.Some? && (OutcomeAt(link, 0).Answer? || (CanReconnect(s.card.value, link) && OutcomeAt(link, 1).Answer?)))
    ensures r.result.Success? ==> r.result.value == (if OutcomeAt(link, 0).Answer? then OutcomeAt(link, 0) else OutcomeAt(link, 1)).reply
    ensures s.card.Some? ==>
      && |r.events| >= 1 && r.events[0] == Sent(Wire(s.channel, s.lastFrame))
      && Reconnects(r.events) == (if OutcomeAt(link, 0).Fault? then 1 else 0)
      && (r.result.Failure? ==>
            r.result.error == (if CanReconnect(s.card.value, link) then TransportFault else ReconnectFault))
  {
    if s.card.None? then Resent(Failure(NoTransport), [])
    else
      var x := Exchange(s.card.value, Wire(s.channel, s.lastFrame), link);
      var outcome := match x.outcome
        case Success(reply) => Success(reply)
        case Failure(_) => Failure(if x.lost then ReconnectFault else TransportFault);
      Resent(outcome, x.events)
  }

  /** `open_secure_channel` (picokey/PicoKey.py:324-330): installs the channel
      only when its token verifies; otherwise the session is untouched. */
  function OpenSecureChannel(s: Session, c: Channel, verified: bool): (r: Result<Session, Error>)
    ensures r.Success? <==> verified
    ensures r.Failure? ==> r.error == AuthenticationFailed
    ensures r.Success? ==>
      (r.value.channel == Some(c) && r.value.card == s.card && r.value.lastFrame == s.lastFrame
       && r.value.watcher == s.watcher && Coherent(r.value) == Coherent(s))
    ensures r.Success? ==> r.value == s.(channel := Some(c))
  {
    if verified then Success(s.(channel := Some(c))) else Failure(AuthenticationFailed)
  }

  // ---------------------------------------------------------------------
  // Removal observers
  // ---------------------------------------------------------------------

  /** `PicoCardObserver.update` (picokey/PicoKey.py:97-102): a removed card
      closes the session. */
  function OnCardEvent(s: Session, removed: bool, disconnectOk: bool): (r: Session)
    requires Coherent(s)
    ensures Coherent(r)
    ensures removed ==> r.card.None?
    ensures !removed ==> r == s
  {
    if removed then Close(s, disconnectOk).session else s
  }

  /** `PicoRescueObserver.update` (picokey/PicoKey.py:157-164): a reported
      disconnection closes the session. */
  function OnRescueEvent<D>(s: Session, o: RescueMonitor.Observation<D>): (r: Session)
    requires Coherent(s)
    ensures Coherent(r)
    ensures o.disconnected.Some? ==> r.card.None?
    ensures o.disconnected.None? ==> r == s
  {
    if o.disconnected.Some? then Close(s, true).session else s
  }

  datatype Ticked = Ticked(session: Session, notices: seq<RescueMonitor.Notification<RescueDriver.UsbDevice>>)

  /** One poll of a rescue session's monitor, its notification delivered to
      the session's observer. */
  function MonitorTick(s: Session, found: Option<RescueDriver.UsbDevice>): (t: Ticked)
    requires Coherent(s)
    ensures Coherent(t.session)
    ensures |t.notices| <= 1
    ensures t.notices != [] && t.notices[0].Disconnected? ==> t.session.card.None?
    ensures s.watcher.RescueWatcher? && s.watcher.monitor.running && s.card.Some? && s.card.value.Rescue? ==>
      var p := RescueMonitor.Poll(s.watcher.monitor, s.card.value.driver.dev, found);
      && t.notices == (if p.notice.Some? then [p.notice.value] else [])
      && (p.notice.None? || p.notice.value.Connected? ==> t.session == s.(watcher := RescueWatcher(p.monitor)))
      && (p.notice.Some? && p.notice.value.Disconnected? ==>
            t.session == Close(s.(watcher := RescueWatcher(p.monitor)), true).session)
    ensures !(s.watcher.RescueWatcher? && s.watcher.monitor.running && s.card.Some? && s.card.value.Rescue?) ==>
      t == Ticked(s, [])
  {
    match s.watcher
    case RescueWatcher(m) =>
      if !m.running || !s.card.Some? || !s.card.value.Rescue? then Ticked(s, [])
      else
        var p := RescueMonitor.Poll(m, s.card.value.driver.dev, found);
        var s1 := s.(watcher := RescueWatcher(p.monitor));
        (match p.notice
         case None => Ticked(s1, [])
         case Some(n) => Ticked(OnRescueEvent(s1, RescueMonitor.Deliver(n)), [n]))
    case _ => Ticked(s, [])
  }

  // ---------------------------------------------------------------------
  // Properties of `send`
  // ---------------------------------------------------------------------

  /** Outcomes k .. k+n-1 are answers with SW1 0x61 and outcome k+n is an
      answer with another SW1: a GET RESPONSE chain of n+1 exchanges. */
  predicate ChainsTo(link: Link, k: nat, n: nat) {
    && (forall j :: k <= j < k + n ==> OutcomeAt(link, j).Answer? && OutcomeAt(link, j).reply.sw1 == MoreData)
    && OutcomeAt(link, k + n).Answer? && OutcomeAt(link, k + n).reply.sw1 != MoreData
  }

  function PayloadOf(o: TxOutcome): seq<Byte> {
    if o.Answer? then o.reply.payload else []
  }

  function Sw2Of(o: TxOutcome): Byte {
    if o.Answer? then o.reply.sw2 else 0
  }

  /** The payloads of outcomes k .. k+n, in order. */
  function Collected(link: Link, k: nat, n: nat): seq<Byte>
    decreases n
  {
    if n == 0 then PayloadOf(OutcomeAt(link, k))
    else PayloadOf(OutcomeAt(link, k)) + Collected(link, k + 1, n - 1)
  }

  /** The n+1 GET RESPONSE frames of a chain starting at outcome k: the first
      asks for `le` bytes, each later one for the SW2 of the answer before. */
  function ChainFrames(link: Link, k: nat, n: nat, le: Byte): seq<Event> {
    seq(n + 1, j requires 0 <= j <= n =>
      Sent(GetResponse(if j == 0 then le else Sw2Of(OutcomeAt(link, k + j - 1)))))
  }

  /** A chain collects every chunk in order, the last included, asks each
      time for what the previous status word announced, and ends with the
      last answer's status word. */
  lemma {:induction false} ChainCollects(link: Link, k: nat, n: nat, le: Byte)
    requires ChainsTo(link, k, n)
    ensures var last := OutcomeAt(link, k + n).reply;
      Chain(link, k, le) == Chained(Success(Reply(Collected(link, k, n), last.sw1, last.sw2)), ChainFrames(link, k, n, le))
    decreases n
  {
    if n > 0 {
      assert OutcomeAt(link, k).Answer? && OutcomeAt(link, k).reply.sw1 == MoreData;
      var r := OutcomeAt(link, k).reply;
      assert ChainsTo(link, k + 1, n - 1) by {
        forall j | k + 1 <= j < k + 1 + (n - 1)
          ensures OutcomeAt(link, j).Answer? && OutcomeAt(link, j).reply.sw1 == MoreData
        {
        }
      }
      ChainCollects(link, k + 1, n - 1, r.sw2);
      var tail := ChainFrames(link, k + 1, n - 1, r.sw2);
      forall j | 1 <= j <= n
        ensures ChainFrames(link, k, n, le)[j] == tail[j - 1]
      {
        assert Sw2Of(OutcomeAt(link, k)) == r.sw2;
      }
      assert ChainFrames(link, k, n, le) == [Sent(GetResponse(le))] + tail;
    }
  }

  /** A live session without a secure channel whose frame builds and whose
      first transmission is answered with `r`. */
  predicate AnsweredPlain(s: Session, req: Request, link: Link, r: Reply) {
    && Coherent(s) && WellFormedCommand(req.command)
    && s.card.Some? && s.channel.None? && BuildFrame(req).Some?
    && OutcomeAt(link, 0) == Answer(r)
  }

  /** Without chaining, one frame goes out; SW1 0x90 passes whatever SW2 is,
      any other status word (a 0x63Cx warning included) must be 0x9000 or
      accepted by the caller, else it is raised as is. */
  lemma SendStatusPolicy(s: Session, req: Request, link: Link, r: Reply)
    requires AnsweredPlain(s, req, link, r) && r.sw1 != MoreData
    ensures var run := Transfer(s, req, link);
      && run.events == [Sent(BuildFrame(req).value)]
      && run.session == s.(lastFrame := BuildFrame(req).value)
      && (run.result.Success? <==> (r.sw1 == 0x90 || Accepted(StatusCode(r.sw1, r.sw2), req.codes)))
      && (run.result.Success? ==> run.result.value == Response(r.payload, StatusCode(r.sw1, r.sw2)))
      && (run.result.Failure? ==> run.result.error == Status(r.sw1, r.sw2))
  {
  }

  /** With SW1 0x61 the first payload is dropped, the chunks of the chain are
      returned in order and the chain's final status word is the one
      checked: after chaining, 0x90xx with xx nonzero is refused unless the
      caller accepts it. */
  lemma SendChains(s: Session, req: Request, link: Link, r: Reply, n: nat)
    requires AnsweredPlain(s, req, link, r) && r.sw1 == MoreData && ChainsTo(link, 1, n)
    ensures var run := Transfer(s, req, link);
      var last := OutcomeAt(link, 1 + n).reply;
      && run.events == [Sent(BuildFrame(req).value)] + ChainFrames(link, 1, n, r.sw2)
      && (run.result.Success? <==> Accepted(StatusCode(last.sw1, last.sw2), req.codes))
      && (run.result.Success? ==> run.result.value == Response(Collected(link, 1, n), StatusCode(last.sw1, last.sw2)))
      && (run.result.Failure? ==> run.result.error == Status(last.sw1, last.sw2))
  {
    ChainCollects(link, 1, n, r.sw2);
  }

  /** With a secure channel the wrapped frame goes on the wire, the plain one
      is remembered, and the code inside the unwrapped response decides. */
  lemma SendSecure(s: Session, req: Request, link: Link, r: Reply)
    requires Coherent(s) && WellFormedCommand(req.command)
    requires s.card.Some? && s.channel.Some? && BuildFrame(req).Some?
    requires OutcomeAt(link, 0) == Answer(r) && r.sw1 == 0x90
    ensures var run := Transfer(s, req, link);
      var (p, code) := s.channel.value.unwrap(r.payload);
      && run.events == [Sent(s.channel.value.wrap(BuildFrame(req).value))]
      && run.session.lastFrame == BuildFrame(req).value
      && (run.result.Success? <==> Accepted(code, req.codes))
      && (run.result.Success? ==> run.result.value == Response(p, code))
      && (run.result.Failure? ==> run.result.error == Status(code / 256, code % 256))
  {
  }

  /** A failed transmission on a smartcard that reconnects is retried once
      with the same wire frame, and the retry's answer is used. */
  lemma RetryRecovers(s: Session, req: Request, link: Link, r: Reply)
    requires Coherent(s) && WellFormedCommand(req.command)
    requires s.card == Some(Smartcard) && s.channel.None? && BuildFrame(req).Some?
    requires OutcomeAt(link, 0).Fault? && link.reconnectOk && OutcomeAt(link, 1) == Answer(r) && r.sw1 == 0x90
    ensures var run := Transfer(s, req, link);
      var w := BuildFrame(req).value;
      && run.events == [Sent(w), Reconnect, Sent(w)]
      && run.session == s.(lastFrame := w)
      && run.result == Success(Response(r.payload, StatusCode(r.sw1, r.sw2)))
  {
  }

  /** When the retransmission fails too the call reports an invalid state
      and the session stays open. */
  lemma RetryFailsKeepsSession(s: Session, req: Request, link: Link)
    requires Coherent(s) && WellFormedCommand(req.command)
    requires s.card == Some(Smartcard) && BuildFrame(req).Some?
    requires OutcomeAt(link, 0).Fault? && link.reconnectOk && OutcomeAt(link, 1).Fault?
    ensures var run := Transfer(s, req, link);
      var w := Wire(s.channel, BuildFrame(req).value);
      && run.events == [Sent(w), Reconnect, Sent(w)]
      && run.session == s.(lastFrame := BuildFrame(req).value)
      && run.result == Failure(InvalidState)
  {
  }

  /** A rescue session cannot reconnect: a failed transmission closes it,
      stopping its monitor, and reports NotFound. */
  lemma RescueFaultCloses(s: Session, req: Request, link: Link)
    requires Coherent(s) && WellFormedCommand(req.command)
    requires s.card.Some? && s.card.value.Rescue? && BuildFrame(req).Some?
    requires OutcomeAt(link, 0).Fault?
    ensures var run := Transfer(s, req, link);
      && run.result == Failure(NotFound)
      && run.session.card.None? && run.session.watcher.NoWatcher?
      && Teardown(StopMonitor) in run.events
      && Reconnects(run.events) == 1
  {
    var run := Transfer(s, req, link);
    var w := Wire(s.channel, BuildFrame(req).value);
    var c := Close(s.(lastFrame := BuildFrame(req).value), link.disconnectOk);
    assert run.events == [Sent(w), Reconnect] + Teardowns(c.steps);
    assert c.steps[0] == StopMonitor;
    assert run.events[2] == Teardown(StopMonitor);
  }

  /** A fault on a PC/SC card that will not reconnect closes the session
      with the teardown of `close`: the observer is removed when one
      watches, the card is disconnected, and the context released when the
      disconnect succeeded. */
  lemma SmartcardFaultCloses(s: Session, req: Request, link: Link)
    requires Coherent(s) && WellFormedCommand(req.command)
    requires s.card == Some(Smartcard) && BuildFrame(req).Some?
    requires OutcomeAt(link, 0).Fault? && !link.reconnectOk
    ensures var run := Transfer(s, req, link);
      && run.result == Failure(NotFound)
      && run.session.card.None? && run.session.watcher.NoWatcher?
      && Teardown(Disconnect) in run.events
      && (Teardown(Release) in run.events <==> link.disconnectOk)
      && (Teardown(RemoveObserver) in run.events <==> s.watcher.CardWatcher?)
      && Reconnects(run.events) == 1
  {
    var run := Transfer(s, req, link);
    var w := Wire(s.channel, BuildFrame(req).value);
    var c := Close(s.(lastFrame := BuildFrame(req).value), link.disconnectOk);
    assert run.events == [Sent(w), Reconnect] + Teardowns(c.steps);
    TeardownsHave(c.steps, Disconnect);
    TeardownsHave(c.steps, Release);
    TeardownsHave(c.steps, RemoveObserver);
  }

  /** The events of a teardown hold exactly its steps. */
  lemma {:induction false} TeardownsHave(steps: seq<TeardownStep>, x: TeardownStep)
    ensures Teardown(x) in Teardowns(steps) <==> x in steps
  {
    if steps != [] {
      TeardownsHave(steps[1..], x);
      assert steps == [steps[0]] + steps[1..];
    }
  }

  /** Once a verified channel is opened, the next `send` puts the wrapped
      frame on the wire and stores the plain one; a token that does not
      verify leaves later sends unwrapped. */
  lemma ChannelWrapsLaterSends(s: Session, c: Channel, req: Request, link: Link)
    requires Coherent(s) && WellFormedCommand(req.command)
    requires s.card.Some? && BuildFrame(req).Some?
    ensures OpenSecureChannel(s, c, true).Success?
    ensures var run := Transfer(OpenSecureChannel(s, c, true).value, req, link);
      && run.events[0] == Sent(c.wrap(BuildFrame(req).value))
      && run.session.lastFrame == BuildFrame(req).value
      && run.session.channel == Some(c)
    ensures OpenSecureChannel(s, c, false).Failure?
  {
  }

  /** A rescue session whose device vanishes is closed by the next poll of
      its monitor, which reports the bound device as disconnected. */
  lemma UnplugClosesRescueSession(s: Session)
    requires Coherent(s) && s.card.Some? && s.card.value.Rescue? && s.card.value.driver.dev.Some?
    requires s.watcher.monitor.running && s.watcher.monitor.present && s.watcher.monitor.hasCallback
    ensures var t := MonitorTick(s, None);
      && t.session.card.None? && t.session.watcher.NoWatcher?
      && t.notices == [RescueMonitor.Disconnected(s.card.value.driver.dev.value)]
  {
  }
  /** A two-byte list command raises at the first log line whatever the
      session, card or no card; the list branch it never reaches would have
      put the two bytes where CLA and INS go and sent a frame. */
  lemma ListCommandRaises(s: Session, p1: Byte, p2: Byte, link: Link)
    requires Coherent(s)
    ensures var req := Request(Opcode([0x80, 0x1E]), 0x00, p1, p2, None, [], []);
      && Send(s, req, link) == SendRun(s, Failure(TypeError), [])
      && (s.card.Some? ==>
            Transfer(s, req, link).events[0] == Sent(Wire(s.channel, [0x80, 0x1E, p1, p2, 0x00, 0x00, 0x00])))
  {
    var req := Request(Opcode([0x80, 0x1E]), 0x00, p1, p2, None, [], []);
    assert Header(req) == [0x80, 0x1E, p1, p2];
    assert BuildFrame(req) == Some([0x80, 0x1E, p1, p2] + [0] + [] + [0, 0]);
    assert [0x80, 0x1E, p1, p2] + [0] + [] + [0, 0] == [0x80, 0x1E, p1, p2, 0x00, 0x00, 0x00];
  }

  /** `resend` after a `send` that kept the session open sends the plain
      frame that `send` stored, the request's frame, passed again through
      the session's channel, with at most one reconnect in between. Without
      a channel that is the very frame `send` put on the wire. */
  lemma ResendRepeatsSend(s: Session, req: Request, first: Link, again: Link)
    requires Coherent(s) && WellFormedCommand(req.command) && s.card.Some? && BuildFrame(req).Some?
    requires Transfer(s, req, first).session.card.Some?
    ensures var run := Transfer(s, req, first);
      var r := Resend(run.session, again);
      && run.session.lastFrame == BuildFrame(req).value
      && run.session.channel == s.channel
      && |r.events| >= 1 && r.events[0] == Sent(Wire(run.session.channel, run.session.lastFrame))
      && (forall i :: 0 <= i < |r.events| ==>
            r.events[i] == Sent(Wire(run.session.channel, run.session.lastFrame)) || r.events[i] == Reconnect)
      && (s.channel.None? ==> r.events[0] == run.events[0] == Sent(BuildFrame(req).value))
  {
    var run := Transfer(s, req, first);
    assert run.session.lastFrame == BuildFrame(req).value;
    assert run.session.channel == s.channel;
  }

  /** With a secure channel and a 0x61 chain, the collected chunks are what
      gets unwrapped: the chain's last status word must pass first, then the
      code inside the unwrapped response decides. */
  lemma SendSecureChains(s: Session, req: Request, link: Link, r: Reply, n: nat)
    requires Coherent(s) && WellFormedCommand(req.command)
    requires s.card.Some? && s.channel.Some? && BuildFrame(req).Some?
    requires OutcomeAt(link, 0) == Answer(r) && r.sw1 == MoreData && ChainsTo(link, 1, n)
    ensures var run := Transfer(s, req, link);
      var last := OutcomeAt(link, 1 + n).reply;
      var (p, code) := s.channel.value.unwrap(Collected(link, 1, n));
      && run.events == [Sent(s.channel.value.wrap(BuildFrame(req).value))] + ChainFrames(link, 1, n, r.sw2)
      && run.session.lastFrame == BuildFrame(req).value
      && (!Accepted(StatusCode(last.sw1, last.sw2), req.codes) ==> run.result == Failure(Status(last.sw1, last.sw2)))
      && (Accepted(StatusCode(last.sw1, last.sw2), req.codes) ==>
            && (run.result.Success? <==> Accepted(code, req.codes))
            && (run.result.Success? ==> run.result.value == Response(p, code))
            && (run.result.Failure? ==> run.result.error == Status(code / 256, code % 256)))
  {
    ChainCollects(link, 1, n, r.sw2);
  }
  /** A chain whose device stops answering after n 0x61 answers fails with
      the transport's error: the exception of the transmit inside the loop
      is not caught. Every GET RESPONSE up to the failing one was sent. */
  lemma {:induction false} ChainBreaks(link: Link, k: nat, n: nat, le: Byte)
    requires forall j :: k <= j < k + n ==> OutcomeAt(link, j).Answer? && OutcomeAt(link, j).reply.sw1 == MoreData
    requires OutcomeAt(link, k + n).Fault?
    ensures Chain(link, k, le) == Chained(Failure(TransportFault), ChainFrames(link, k, n, le))
    decreases n
  {
    if n > 0 {
      var r := OutcomeAt(link, k).reply;
      ChainBreaks(link, k + 1, n - 1, r.sw2);
      var tail := ChainFrames(link, k + 1, n - 1, r.sw2);
      forall j | 1 <= j <= n
        ensures ChainFrames(link, k, n, le)[j] == tail[j - 1]
      {
        assert Sw2Of(OutcomeAt(link, k)) == r.sw2;
      }
      assert ChainFrames(link, k, n, le) == [Sent(GetResponse(le))] + tail;
    } else {
      assert ChainFrames(link, k, 0, le) == [Sent(GetResponse(le))];
    }
  }

  /** A retried transmission that is answered with 0x61 chains from the
      outcome after the retry's answer, and the chain's last status word is
      judged as without a retry. */
  lemma RetryThenChains(s: Session, req: Request, link: Link, r: Reply, n: nat)
    requires Coherent(s) && WellFormedCommand(req.command)
    requires s.card == Some(Smartcard) && s.channel.None? && BuildFrame(req).Some?
    requires OutcomeAt(link, 0).Fault? && link.reconnectOk
    requires OutcomeAt(link, 1) == Answer(r) && r.sw1 == MoreData && ChainsTo(link, 2, n)
    ensures var run := Transfer(s, req, link);
      var w := BuildFrame(req).value;
      var last := OutcomeAt(link, 2 + n).reply;
      && run.events == [Sent(w), Reconnect, Sent(w)] + ChainFrames(link, 2, n, r.sw2)
      && run.session == s.(lastFrame := w)
      && (run.result.Success? <==> Accepted(StatusCode(last.sw1, last.sw2), req.codes))
      && (run.result.Success? ==> run.result.value == Response(Collected(link, 2, n), StatusCode(last.sw1, last.sw2)))
      && (run.result.Failure? ==> run.result.error == Status(last.sw1, last.sw2))
  {
    ChainCollects(link, 2, n, r.sw2);
  }

  /** With a secure channel a first answer that is neither 0x90 nor 0x61
      must pass the policy on its own code, and is then unwrapped like any
      other: the unwrapped code decides. */
  lemma SendSecureAnyStatus(s: Session, req: Request, link: Link, r: Reply)
    requires Coherent(s) && WellFormedCommand(req.command)
    requires s.card.Some? && s.channel.Some? && BuildFrame(req).Some?
    requires OutcomeAt(link, 0) == Answer(r) && r.sw1 != 0x90 && r.sw1 != MoreData
    ensures var run := Transfer(s, req, link);
      var (p, code) := s.channel.value.unwrap(r.payload);
      && run.events == [Sent(s.channel.value.wrap(BuildFrame(req).value))]
      && (!Accepted(StatusCode(r.sw1, r.sw2), req.codes) ==> run.result == Failure(Status(r.sw1, r.sw2)))
      && (Accepted(StatusCode(r.sw1, r.sw2), req.codes) ==>
            && (run.result.Success? <==> Accepted(code, req.codes))
            && (run.result.Success? ==> run.result.value == Response(p, code))
            && (run.result.Failure? ==> run.result.error == Status(code / 256, code % 256)))
  {
  }

  /** A device that stops answering inside the GET RESPONSE loop fails the
      call with the transport's error, and the session stays open. */
  lemma SendChainBreaks(s: Session, req: Request, link: Link, r: Reply, n: nat)
    requires AnsweredPlain(s, req, link, r) && r.sw1 == MoreData
    requires forall j :: 1 <= j < 1 + n ==> OutcomeAt(link, j).Answer? && OutcomeAt(link, j).reply.sw1 == MoreData
    requires OutcomeAt(link, 1 + n).Fault?
    ensures var run := Transfer(s, req, link);
      && run.result == Failure(TransportFault)
      && run.events == [Sent(BuildFrame(req).value)] + ChainFrames(link, 1, n, r.sw2)
      && run.session == s.(lastFrame := BuildFrame(req).value)
  {
    ChainBreaks(link, 1, n, r.sw2);
  }
}

=== FILE: telemetry.dfy ===
/** Device management commands of `PicoKey` (picokey/PicoKey.py:350-385):
    flash statistics, secure-boot status, secure-boot provisioning and
    reboot. Each is one `send` with class byte 0x80. */
module Telemetry {
  import opened Wrappers
  import opened Bytes
  import opened Apdu
  import opened Session

  /** The class byte of the management commands. */
  const Management: Byte := 0x80
  /** INS of the read-information command; P1 selects what is read. */
  const ReadInfo: Byte := 0x1E
  /** INS of the write-configuration command. */
  const WriteConfig: Byte := 0x1C
  /** INS of the reboot command. */
  const RebootIns: Byte := 0x1F

  function ManagementRequest(ins: Byte, p1: Byte, data: seq<Byte>): Request {
    Request(Ins(ins), Management, p1, 0x00, None, data, [])
  }

  /** A management command without data is seven bytes: CLA, INS, P1, a
      zero P2, the one-byte zero Lc and a zero Le. */
  lemma PlainFrame(ins: Byte, p1: Byte)
    ensures BuildFrame(ManagementRequest(ins, p1, [])) == Some([0x80, ins, p1, 0x00, 0x00, 0x00, 0x00])
  {
    var req := ManagementRequest(ins, p1, []);
    FrameLayout(req);
    assert [0x80, ins] + [p1, 0x00] + [0] + [] + [0, 0] == [0x80, ins, p1, 0x00, 0x00, 0x00, 0x00];
  }

  // ---------------------------------------------------------------------
  // flash_info
  // ---------------------------------------------------------------------

  /** Free, used and total flash bytes, number of files and their size. */
  datatype FlashInfo = FlashInfo(free: nat, used: nat, total: nat, nfiles: nat, size: nat)

  const NoFlashInfo := FlashInfo(0, 0, 0, 0, 0)

  predicate FitsWords(f: FlashInfo) {
    && f.free < Pow256(4) && f.used < Pow256(4) && f.total < Pow256(4)
    && f.nfiles < Pow256(4) && f.size < Pow256(4)
  }

  /** The i-th big-endian 32-bit word of a payload, as `int.from_bytes` reads
      a slice that may run past the end. */
  function Word(payload: seq<Byte>, i: nat): (w: nat)
    ensures w < Pow256(4)
    ensures |payload| <= 4 * i ==> w == 0
    ensures |payload| >= 4 * i + 4 ==> w == FromBigEndian(payload[4 * i..4 * i + 4])
    ensures 4 * i < |payload| < 4 * i + 4 ==> w == FromBigEndian(payload[4 * i..])
  {
    var chunk := PySlice(payload, 4 * i, 4 * i + 4);
    PowMonotone(|chunk|, 4);
    if |chunk| == 0 then 0 else FromBigEndian(chunk)
  }

  lemma {:induction false} PowMonotone(a: nat, b: nat)
    requires a <= b
    ensures Pow256(a) <= Pow256(b)
    decreases b
  {
    if a < b {
      PowMonotone(a, b - 1);
    }
  }

  /** `flash_info` decoding (picokey/PicoKey.py:350-367): five words at byte
      offsets 0, 4, 8, 12 and 16; any exception from the command, whatever
      it is, yields all zeros. */
  function FlashInfoOf(result: Result<Response, Error>): (f: FlashInfo)
    ensures FitsWords(f)
    ensures result.Failure? ==> f == NoFlashInfo
    ensures result.Success? && result.value.payload == [] ==> f == NoFlashInfo
    ensures result.Success? ==>
      var p := result.value.payload;
      f == FlashInfo(Word(p, 0), Word(p, 1), Word(p, 2), Word(p, 3), Word(p, 4))
  {
    match result
    case Failure(_) => NoFlashInfo
    case Success(resp) =>
      var p := resp.payload;
      FlashInfo(Word(p, 0), Word(p, 1), Word(p, 2), Word(p, 3), Word(p, 4))
  }

  /** The payload a device sends for given statistics. */
  function EncodeFlashInfo(f: FlashInfo): (r: seq<Byte>)
    requires FitsWords(f)
    ensures |r| == 20
  {
    ToBigEndian(f.free, 4) + ToBigEndian(f.used, 4) + ToBigEndian(f.total, 4)
      + ToBigEndian(f.nfiles, 4) + ToBigEndian(f.size, 4)
  }

  lemma WordOfEncoded(w: nat, i: nat, payload: seq<Byte>)
    requires w < Pow256(4) && |payload| >= 4 * i + 4
    requires payload[4 * i .. 4 * i + 4] == ToBigEndian(w, 4)
    ensures Word(payload, i) == w
  {
    FromToBigEndian(w, 4);
  }

  /** An answer cut short after two words still yields them, and zeros
      for the words it does not reach. */
  lemma ShortAnswerKeepsWords(a: nat, b: nat, code: int)
    requires a < Pow256(4) && b < Pow256(4)
    ensures FlashInfoOf(Success(Response(ToBigEndian(a, 4) + ToBigEndian(b, 4), code))) == FlashInfo(a, b, 0, 0, 0)
  {
    var p := ToBigEndian(a, 4) + ToBigEndian(b, 4);
    assert p[0..4] == ToBigEndian(a, 4);
    assert p[4..8] == ToBigEndian(b, 4);
    WordOfEncoded(a, 0, p);
    WordOfEncoded(b, 1, p);
  }

  /** Statistics encoded by a device decode to themselves, whatever trails. */
  lemma FlashInfoRoundTrip(f: FlashInfo, rest: seq<Byte>, code: int)
    requires FitsWords(f)
    ensures FlashInfoOf(Success(Response(EncodeFlashInfo(f) + rest, code))) == f
  {
    var p := EncodeFlashInfo(f) + rest;
    WordOfEncoded(f.free, 0, p);
    WordOfEncoded(f.used, 1, p);
    WordOfEncoded(f.total, 2, p);
    WordOfEncoded(f.nfiles, 3, p);
    WordOfEncoded(f.size, 4, p);
  }

  const FlashInfoRequest := ManagementRequest(ReadInfo, 0x02, [])

  datatype Reading<T> = Reading(session: Session, value: T, events: seq<Event>)

  /** `flash_info` on a session: it never raises. */
  function ReadFlashInfo(s: Session, link: Link): (r: Reading<FlashInfo>)
    requires Coherent(s)
    ensures Coherent(r.session) && FitsWords(r.value)
    ensures s.card.None? ==> r == Reading(s, NoFlashInfo, [])
    ensures s.card.Some? ==> |r.events| >= 1 && r.events[0] == Sent(Wire(s.channel, [0x80, 0x1E, 0x02, 0x00, 0x00, 0x00, 0x00]))
    ensures var run := Send(s, FlashInfoRequest, link);
      && r.session == run.session && r.events == run.events
      && r.value == FlashInfoOf(run.result)
  {
    PlainFrame(ReadInfo, 0x02);
    var run := Send(s, FlashInfoRequest, link);
    Reading(run.session, FlashInfoOf(run.result), run.events)
  }

  /** A plain session whose device answers the statistics with 9000 reads
      them back exactly. */
  lemma ReadFlashInfoOfDevice(s: Session, link: Link, f: FlashInfo)
    requires Coherent(s) && s.card.Some? && s.channel.None? && FitsWords(f)
    requires OutcomeAt(link, 0) == Answer(Reply(EncodeFlashInfo(f), 0x90, 0x00))
    ensures ReadFlashInfo(s, link).value == f
  {
    var r := Reply(EncodeFlashInfo(f), 0x90, 0x00);
    SendStatusPolicy(s, FlashInfoRequest, link, r);
    FlashInfoRoundTrip(f, [], StatusCode(0x90, 0x00));
    assert EncodeFlashInfo(f) + [] == EncodeFlashInfo(f);
  }

  /** Under a secure channel the statistics are read from the unwrapped
      answer. */
  lemma ReadFlashInfoSecure(s: Session, link: Link, f: FlashInfo, payload: seq<Byte>, sw2: Byte)
    requires Coherent(s) && s.card.Some? && s.channel.Some? && FitsWords(f)
    requires OutcomeAt(link, 0) == Answer(Reply(payload, 0x90, sw2))
    requires s.channel.value.unwrap(payload) == (EncodeFlashInfo(f), SwSuccess)
    ensures ReadFlashInfo(s, link).value == f
  {
    PlainFrame(ReadInfo, 0x02);
    SendSecure(s, FlashInfoRequest, link, Reply(payload, 0x90, sw2));
    FlashInfoRoundTrip(f, [], SwSuccess);
    assert EncodeFlashInfo(f) + [] == EncodeFlashInfo(f);
  }

  /** A refused status word makes `send` raise, and `flash_info` then
      reports zeros with the session kept open. */
  lemma ReadFlashInfoRejected(s: Session, link: Link, payload: seq<Byte>, sw1: Byte, sw2: Byte)
    requires Coherent(s) && s.card.Some? && s.channel.None?
    requires OutcomeAt(link, 0) == Answer(Reply(payload, sw1, sw2)) && sw1 != 0x90 && sw1 != MoreData
    ensures var r := ReadFlashInfo(s, link);
      && r.value == NoFlashInfo
      && r.session == s.(lastFrame := [0x80, 0x1E, 0x02, 0x00, 0x00, 0x00, 0x00])
  {
    PlainFrame(ReadInfo, 0x02);
    SendStatusPolicy(s, FlashInfoRequest, link, Reply(payload, sw1, sw2));
    assert StatusCode(sw1, sw2) != SwSuccess;
  }

  // ---------------------------------------------------------------------
  // secure_info
  // ---------------------------------------------------------------------

  datatype SecureInfo = SecureInfo(enabled: bool, locked: bool, bootKey: Byte)

  const SecureInfoRequest := ManagementRequest(ReadInfo, 0x03, [])

  /** `secure_info` decoding (picokey/PicoKey.py:369-376): any nonzero first
      or second byte means enabled or locked; the third byte is the boot-key
      index. The command's exceptions propagate, and a payload shorter than
      three bytes raises IndexError. */
  function SecureInfoOf(result: Result<Response, Error>): (r: Result<SecureInfo, Error>)
    ensures result.Failure? ==> r == Failure(result.error)
    ensures result.Success? ==> (r.Success? <==> |result.value.payload| >= 3)
    ensures result.Success? && r.Failure? ==> r.error == IndexError
    ensures r.Success? ==>
      var p := result.value.payload;
      && r.value.enabled == (p[0] != 0) && r.value.locked == (p[1] != 0) && r.value.bootKey == p[2]
  {
    match result
    case Failure(e) => Failure(e)
    case Success(resp) =>
      var p := resp.payload;
      if |p| < 3 then Failure(IndexError) else Success(SecureInfo(p[0] != 0, p[1] != 0, p[2]))
  }

  function EncodeSecureInfo(i: SecureInfo): seq<Byte> {
    [if i.enabled then 1 else 0, if i.locked then 1 else 0, i.bootKey]
  }

  lemma SecureInfoRoundTrip(i: SecureInfo, rest: seq<Byte>, code: int)
    ensures SecureInfoOf(Success(Response(EncodeSecureInfo(i) + rest, code))) == Success(i)
  {
  }

  /** `secure_info` on a session: the command's exceptions propagate. */
  function ReadSecureInfo(s: Session, link: Link): (r: Reading<Result<SecureInfo, Error>>)
    requires Coherent(s)
    ensures Coherent(r.session)
    ensures s.card.None? ==> r == Reading(s, Failure(NotFound), [])
    ensures s.card.Some? ==> |r.events| >= 1 && r.events[0] == Sent(Wire(s.channel, [0x80, 0x1E, 0x03, 0x00, 0x00, 0x00, 0x00]))
    ensures var run := Send(s, SecureInfoRequest, link);
      && r.session == run.session && r.events == run.events
      && r.value == SecureInfoOf(run.result)
  {
    PlainFrame(ReadInfo, 0x03);
    var run := Send(s, SecureInfoRequest, link);
    Reading(run.session, SecureInfoOf(run.result), run.events)
  }

  /** A plain session whose device answers with the status bytes reads them
      back; a rejected status word is raised instead. */
  lemma ReadSecureInfoOfDevice(s: Session, link: Link, i: SecureInfo, sw1: Byte, sw2: Byte)
    requires Coherent(s) && s.card.Some? && s.channel.None? && sw1 != MoreData
    requires OutcomeAt(link, 0) == Answer(Reply(EncodeSecureInfo(i), sw1, sw2))
    ensures ReadSecureInfo(s, link).value ==
      if sw1 == 0x90 then Success(i) else Failure(Status(sw1, sw2))
  {
    var r := Reply(EncodeSecureInfo(i), sw1, sw2);
    SendStatusPolicy(s, SecureInfoRequest, link, r);
    SecureInfoRoundTrip(i, [], StatusCode(sw1, sw2));
    assert EncodeSecureInfo(i) + [] == EncodeSecureInfo(i);
    if sw1 != 0x90 {
      assert StatusCode(sw1, sw2) != SwSuccess;
    }
  }

  /** Under a secure channel the bytes are read from the unwrapped answer,
      and an unwrapped status the caller does not accept is raised. */
  lemma ReadSecureInfoSecure(s: Session, link: Link, payload: seq<Byte>, sw2: Byte, inner: seq<Byte>, code: int)
    requires Coherent(s) && s.card.Some? && s.channel.Some?
    requires OutcomeAt(link, 0) == Answer(Reply(payload, 0x90, sw2))
    requires s.channel.value.unwrap(payload) == (inner, code)
    ensures ReadSecureInfo(s, link).value ==
      if code != SwSuccess then Failure(Status(code / 256, code % 256))
      else SecureInfoOf(Success(Response(inner, code)))
  {
    PlainFrame(ReadInfo, 0x03);
    SendSecure(s, SecureInfoRequest, link, Reply(payload, 0x90, sw2));
  }

  // ---------------------------------------------------------------------
  // secure_boot and reboot
  // ---------------------------------------------------------------------

  /** `secure_boot` (picokey/PicoKey.py:378-381): the boot-key index masked
      to its low byte (Python's `& 0xFF`, two's complement for negative
      indices) and the lock flag as 0 or 1. */
  function SecureBootRequest(bootKeyIndex: int, lock: bool): (req: Request)
    ensures WellFormedCommand(req.command)
  {
    ManagementRequest(WriteConfig, 0x02, [bootKeyIndex % 256, if lock then 1 else 0])
  }

  /** The provisioning frame carries the index modulo 256 and the lock flag,
      read back by the extended-length parser. */
  lemma SecureBootFrame(bootKeyIndex: int, lock: bool)
    ensures BuildFrame(SecureBootRequest(bootKeyIndex, lock)) ==
      Some([0x80, 0x1C, 0x02, 0x00, 0x00, 0x00, 0x02, bootKeyIndex % 256, if lock then 1 else 0, 0x00, 0x00])
    ensures var f := BuildFrame(SecureBootRequest(bootKeyIndex, lock)).value;
      && ReadExtended(f, 4).Some?
      && ReadExtended(f, 4).value.data == [bootKeyIndex % 256, if lock then 1 else 0]
    ensures SecureBootRequest(bootKeyIndex + 256, lock) == SecureBootRequest(bootKeyIndex, lock)
  {
    var req := SecureBootRequest(bootKeyIndex, lock);
    var d: seq<Byte> := [bootKeyIndex % 256, if lock then 1 else 0];
    assert req == Request(Ins(0x1C), 0x80, 0x02, 0x00, None, d, []);
    FrameLayout(req);
    assert [0x80, 0x1C] + [0x02, 0x00] + [0, 0, 2] + d + [0, 0]
        == [0x80, 0x1C, 0x02, 0x00, 0x00, 0x00, 0x02, d[0], d[1], 0x00, 0x00];
  }

  /** `reboot` (picokey/PicoKey.py:383-385): P1 is 1 for BOOTSEL, else 0. */
  function RebootRequest(bootsel: bool): (req: Request)
    ensures WellFormedCommand(req.command)
  {
    ManagementRequest(RebootIns, if bootsel then 0x01 else 0x00, [])
  }

  /** The reboot frame has no data: a one-byte zero Lc and a zero Le. */
  lemma RebootFrame(bootsel: bool)
    ensures BuildFrame(RebootRequest(bootsel)) ==
      Some([0x80, 0x1F, if bootsel then 0x01 else 0x00, 0x00, 0x00, 0x00, 0x00])
  {
    PlainFrame(RebootIns, if bootsel then 0x01 else 0x00);
  }
}

=== FILE: wrappers.dfy ===
/** Failure-carrying results shared by every module of the model: Python's
    `None` and raised exceptions become explicit values here. */
module Wrappers {

  datatype Option<+T> = None | Some(value: T) {

    function GetOr(default: T): T {
      match this
      case Some(v) => v
      case None => default
    }
  }

  datatype Result<+R, +E> = Success(value: R) | Failure(error: E)

  /** `k` copies of `x`: Python's `[x] * k`, or `c * k` for a character. */
  function Repeat<T>(x: T, k: nat): (r: seq<T>)
    ensures |r| == k && forall i :: 0 <= i < k ==> r[i] == x
  {
    seq(k, _ => x)
  }
}
